=== FILE: README.md ===
# Singapore job-market dashboard: a Dafny model of its data layer

This project models the data-processing core of a Streamlit dashboard over
Singapore job postings, together with the three offline scripts that prepare
its data files. It covers:

- **Cleaning** (`app.py`): filling missing counts, IQR outlier clipping and
  the 0..15 clip of the minimum years of experience, and the five experience
  segments.
- **Category handling** (`app.py`, `extract_skills.py`): reading the
  `categories` cell as a JSON list (single quotes swapped for double quotes
  first), exploding it to one row per element, and extracting a sector name
  from each element.
- **Dashboard aggregations** (`app.py`): executive KPIs and leading sectors,
  the top-sector ranking, the sector filter, the demand-velocity series with
  its bulk factor, the bulk-hiring heatmap, the experience pay scale and gate,
  the per-sector education metrics, and the job-title "hidden demand"
  quadrant chart.
- **Skills extraction** (`extract_skills.py`): one row per (skill row,
  category), with missing and empty categories dropped.
- **Skills pre-aggregation** (`cat_skills_data_optimizer.py`): distinct job
  counts per (skill, category, `YYYY-MM` month), in month, category, skill
  order.
- **Title back-fill** (`refactor_data.py`): the first cleaned title of each
  job id, left-merged into the postings table, with the legacy columns dropped.

Tables are sequences of immutable rows. Every pandas operation is a pure
function, and each one's contract says what its result means:

- a `groupby` result holds exactly the keys present, in sorted order, and
  each value is that key's group total;
- a ranking is a bounded, non-increasing selection that no left-out entry
  beats;
- an explode places each posting's rows together, in list order;
- the month key reads back and sorts chronologically;
- a merge keeps one row per target row when the title map has unique keys.

Modules, one per file:

- `values.dfy`: `Option`, cells, decoded JSON, Python `str()`.
- `seqs.dfy`: filtering, sums, de-duplication, flattening.
- `order.dfy`: text order, strict total orders, sorting, top-N.
- `groups.dfy`: `groupby` groups, keys and totals.
- `categories.dfy`: parse, explode and extract categories.
- `cleaning.dfy`: `load_and_clean_data`.
- `explode.dfy`: `explode_categories`.
- `aggregates.dfy`: KPIs, the top-sector ranking, the sector filter.
- `momentum.dfy`: demand velocity and the bulk-hiring heatmap.
- `experience.dfy`: the experience metrics.
- `opportunity.dfy`: the education metrics and hidden demand.
- `extract_skills.dfy`, `monthkey.dfy`, `skills_optimizer.dfy`,
  `title_backfill.dfy`: the three scripts.

Behaviour of the code that the model keeps:

- A missing minimum experience is filled with 0 (app.py:160), so it lands in
  the "Fresh" segment. There is no "Unknown" segment.
- Experience is a real number after clipping. The bands are `== 0`, `<= 2`,
  `<= 5`, `<= 8`, and above that (app.py:168-173). So 0.5 years is "Junior".
- A group with zero vacancies gets a bulk factor of 0 (app.py:261). The
  heatmap divides by 1 instead of 0 (app.py:284).
- A value exactly at a median counts on the HIGH side of that axis
  (app.py:644-650).
- The `categories` cell is read as a JSON list of names or of dicts, after
  its single quotes become double quotes (app.py:116).
- A posting without a date has no month (`NaT`). It still counts in the
  KPIs, but the month-keyed `groupby` (app.py:254) and `pivot_table`
  (app.py:274-280) leave it out.

## Model

| member | source | states |
|---|---|---|
| Values.Lookup | app.py:124 | `dict.get`: None exactly when the key is not bound; otherwise the value of its last binding, as a Python dict built from JSON keeps. |
| Values.Keys | app.py:116 | The keys of a dict built from a JSON object: each bound key once, and no other. |
| Values.KeysInFirstOrder | app.py:116 | A dict's keys come in the order of their first binding: a key listed before another was bound before any binding of the later one. |
| Values.LastIndex | app.py:116 | The position of a key's last binding: it binds the key, and no later entry does. |
| Values.LookupIsLast | app.py:116-124 | A bound key's value is that of its last binding. |
| Values.StrIsOfDict | app.py:124-125 | `str()` of a decoded object depends only on the dict it builds: two objects with the same keys, in the same order, and the same value for each key print the same. |
| Values.StrRepeatedKey | app.py:116-125 | An object binding `a` twice prints as a dict with one `a`, holding the second value. |
| Cleaning.FencesOrdered | app.py:99-103 | When Q1 <= Q3 the IQR fences enclose both quartiles. |
| Cleaning.ClipOutliers | app.py:97-105 | The result is the value itself, the lower fence or the upper fence. A value inside the fences is unchanged. Above the upper fence it becomes the upper fence; below the lower fence, and not above the upper one, it becomes the lower fence. With ordered quartiles the result lies within the fences. |
| Cleaning.ClipYears | app.py:165 | `np.clip(.., 0, 15)`: the result lies in [0, 15]. A value already in range is unchanged; below 0 it becomes 0, above 15 it becomes 15. |
| Cleaning.CleanYears | app.py:160-165 | The minimum experience after `fillna(0)`, fence clipping and the 0..15 clip is in [0, 15]. A missing value becomes 0 when 0 is inside the fences. A present value inside both the fences and [0, 15] is kept. |
| Cleaning.CategorizeMatchesBands | app.py:168-173 | For non-negative years, `categorize_exp` returns a segment exactly when the years lie in that segment's band (0; (0, 2]; (2, 5]; (5, 8]; above 8). |
| Cleaning.CategorizeMonotone | app.py:168-173 | More years never give a lower segment. |
| Cleaning.CategorizeBoundaries | app.py:168-173 | Boundary values go to the lower bucket: 0 is Fresh, 0.5 and 2 are Junior, 3 and 5 are Mid, 8 is Senior, 9 and 15 are Lead. |
| Cleaning.NegativeYearsWouldBeJunior | app.py:165-170 | Without the clip to 0, a negative value would be ranked "Junior", above "Fresh". |
| Cleaning.LabelStartsWithRank | app.py:169-173 | Each segment label starts with the digit of its rank, so sorting labels as text sorts segments by seniority. |
| Cleaning.LabelOrder | app.py:169-173 | One segment's label sorts before another's as text exactly when its segment is less senior. |
| Cleaning.Clean | app.py:155-182 | Vacancies default to 1, applications and views to 0, and a present count is kept. Experience is the missing-as-0, fence-clipped, 0..15-clipped value of `CleanYears`, and the segment is the one whose band holds it. Every other field is copied unchanged, the month included. |
| Cleaning.CleanAll | app.py:157-182 | Cleaning keeps the row count and cleans each posting independently; every result satisfies the cleaned-row invariant. |
| Categories.SwapQuotesNormalises | app.py:116 | The swapped text has no single quote left, and swapping again changes nothing. |
| Categories.ParseCategories | app.py:113-119 | A non-text cell or text the JSON reader rejects gives the empty list. Otherwise the result is what the reader returns for the quote-swapped text. |
| Categories.Elements | app.py:190 | `explode` always gives at least one element. A non-empty list gives its items, in order. A non-empty dict gives its distinct keys as strings, each once, in the order of their first binding. An empty list or dict gives a single NaN, and any other value stays as itself. |
| Categories.CategoryText | app.py:122-125 | The grouping text of a category: it is missing exactly for a null `category`/`name`, and an empty list's NaN becomes the text "nan". |
| Categories.ExtractCategory | app.py:122-125 | A dict gives its `category` value, else its `name` value, else its `str()`. Any other element gives its `str()`, and NaN gives the empty-list marker. A dict's `category` or `name` value is that of the key's last binding (`Values.Lookup`). Its `str()` is the text of the dict it builds, each key once with that value (`Values.StrIsOfDict`). |
| Categories.RepeatedKeyExplodesOnce | app.py:116-190 | A dict that binds one key twice explodes to a single element. |
| Categories.UnparsableGivesSingleNan | app.py:113-119 | An unparsable or non-text cell yields exactly one category, whose text is "nan". |
| Categories.StringListGivesNames | app.py:113-125 | A cell that parses to a non-empty list of strings yields exactly those names, in order. |
| Explode.ExplodeCategories | app.py:186-192 | The exploded table has at least as many rows as postings, and every row carries one of the postings. |
| Explode.ExplodeBlock | app.py:188-191 | The rows of the k-th posting sit together in the exploded table, after those of the postings before it, in category order. |
| Explode.ExplodeLength | app.py:190 | The exploded table's length is the sum over postings of their category counts. |
| Explode.ExplodedVacancyTotal | app.py:186-192 | Summing vacancies over the exploded table counts each posting's vacancies once per row it became. |
| Explode.SingleSectorKeepsTotal | app.py:186-192 | When every posting has exactly one category, exploding keeps the vacancy total. |
| Groups.GroupKeys | app.py:222 | `groupby` keys: strictly sorted, so distinct, and exactly the keys some row has (rows without a key are left out). |
| Groups.GroupKeysPartition | app.py:254-257 | Adding the group totals over all `groupby` keys gives the total over the keyed rows. |
| Order.TopN | app.py:233 | `sort_values(ascending=False).head(n)`: the result has length min(n, size) and is non-increasing. It is a sub-multiset of the input, and every entry left out is no larger than any entry kept. Among distinct entries, one left out that comes before a kept one in the input has a strictly smaller value, so ties keep the earlier entry. |
| Order.SortPrefixStable | app.py:233 | The descending insertion sort is stable: an entry outside the first k comes after every entry inside them that has the same value. |
| Order.InsertDescShape | app.py:233 | Inserting into a descending sequence keeps the other entries in order and places the new one at its insertion point. |
| Order.InsertPosAbove | app.py:233 | Every entry before the insertion point is larger than the entry inserted. |
| Aggregates.Sectors | app.py:222 | The sectors are strictly sorted and duplicate-free, and a name is among them exactly when some row is in that sector. |
| Aggregates.FilterBySector | app.py:241-245 | "All" returns the table itself. Any other sector keeps exactly that sector's rows, in order, each with its full multiplicity. |
| Aggregates.PostCountIsRowCount | app.py:223 | Counting posts in a sector gives the number of that sector's rows. |
| Aggregates.ArgMax | app.py:222-224 | `idxmax`: a key with the largest value, and the first such key in key order. |
| Aggregates.TopSector | app.py:222-224 | The leading sector is some row's sector, and no sector has a larger total. Every sector before it in name order has a strictly smaller total, so on a tie it is the first in name order, as `idxmax` over the sorted `groupby` index. |
| Aggregates.FirstMaxBeatsEarlier | app.py:222-224 | Over keys in name order, the first key with the largest value beats every key before it in name order. |
| Aggregates.ExecutiveSummary | app.py:216-226 | Total posts is the row count, and the vacancy and view totals are sums over all rows. Each leading sector is a sector that no other sector beats on its metric; posts are counted as rows. The vacancy and view leaders are strictly ahead of every sector before them in name order, as `idxmax` picks the first maximum. |
| Aggregates.Rankable | app.py:230 | The sectors left after removing "Others", duplicate-free and in name order. |
| Aggregates.TopSectors | app.py:228-239 | The ranking has min(limit, number of non-"Others" sectors) entries, with distinct names. Each entry is a real sector other than "Others" paired with its total. It is non-increasing, and no left-out sector has a larger total than any entry. The model breaks ties in name order: a left-out sector with the same total as an entry comes after it in name order. pandas does not promise that order here (see "## Left out"). |
| Aggregates.TiesInNameOrder | app.py:228-239 | Of two sectors with equal totals, the ranking keeps the one first in name order. |
| Aggregates.TiesByKey | app.py:233-250 | In a table listing keys in order, a selection that keeps the earlier of equal totals leaves out only keys after every kept key with the same total. |
| Aggregates.TopSectorNames | app.py:249-250 | The `nlargest(n).index` of sector vacancy totals: at most n distinct real sectors, never "Others", and none left out has more vacancies than one kept. With `keep='first'`, a left-out sector tied with a kept one comes after it in name order. |
| Aggregates.SectorTotalsAddUp | app.py:219-222 | When every row has a sector, the per-sector totals add up to the overall total. |
| Momentum.BulkFactor | app.py:260-263 | With positive vacancies the factor times vacancies is applications; otherwise it is 0. For non-negative applications it lies between 0 and applications. |
| Momentum.HeatCell | app.py:282-285 | A zero-vacancy cell shows applications divided by 1; otherwise applications divided by vacancies. |
| Momentum.HeatCellVersusBulkFactor | app.py:260-285 | The heatmap ratio and the velocity bulk factor agree for positive vacancies. They differ exactly when vacancies are 0 and applications are not. |
| Momentum.TopRows | app.py:249-251 | The rows kept are exactly those in one of the top-n sectors, never "Others" or missing. `isin` keeps them in input order, as a subsequence, and each kept row as often as it occurs in the input. |
| Momentum.RowsIn | app.py:251 | `isin` over a sector list: the rows whose sector is listed, in order, each with its full multiplicity, and no other row. |
| Momentum.PointOf | app.py:254-263 | One velocity point: its month and sector, summed applications and vacancies of that pair, and the guarded bulk factor. |
| Momentum.DemandVelocity | app.py:247-265 | Points are strictly ordered by (month, sector). Each point is a top-10 sector and month some dated row has, with that pair's summed vacancies and applications and its bulk factor. Every dated top-10 row is covered by a point; an undated row is in none. |
| Momentum.VelocityAddsUp | app.py:254-257 | The velocity points' vacancies add up to the vacancies of the dated top-10 rows. |
| Momentum.BulkHiringMap | app.py:267-287 | Sectors are exactly those of the top 12 with a dated row, in name order. Months are those the top-12 rows post in, in order. The grid is sectors × months, and each cell is the ratio of that pair's summed applications and vacancies. |
| Momentum.MissingPairIsZero | app.py:274-285 | A (sector, month) pair with no postings shows 0 (the pivot fills it with 0, and 0 / 1 = 0). |
| Momentum.EmptyCell | app.py:274-285 | A (month, sector) key no row has sums to nothing and its cell is 0. |
| Experience.PayScale | app.py:295-297 | The vacancy-weighted mean salary: undefined exactly when the group's vacancies sum to 0, and otherwise times that sum it gives the weighted salary sum. |
| Experience.PayScaleWithinSalaries | app.py:295-297 | With non-negative vacancies, the weighted mean lies between the lowest and highest salary in the group. |
| Experience.Segments | app.py:295-300 | The segments present, strictly sorted, exactly those some row has. |
| Experience.ExperienceMetricsOf | app.py:289-302 | After the sector filter, there is one pay-scale point and one gate entry per segment present, in segment order. Each holds that segment's vacancy total and weighted mean salary. |
| Experience.GateAddsUp | app.py:300 | The experience gate's vacancies add up to the filtered table's vacancies. |
| Opportunity.MeanMinExp | app.py:309 | The mean experience of a non-empty group times its size is the group's sum, and lies in [0, 15]. |
| Opportunity.OppScore | app.py:313 | Opportunity score times (mean experience + 1) gives vacancies. For non-negative vacancies it lies between 0 and vacancies. |
| Opportunity.Summary | app.py:306-317 | A group's row gives vacancy and application totals and the post count. Its mean experience is in [0, 15]. The opportunity score is scaled by mean + 1, and the competition index is applications per vacancy (0 without vacancies). |
| Opportunity.Aggregate | app.py:306-311 | One row per key present, strictly ordered by key. Each row is the metrics of that key's non-empty group. |
| Opportunity.EducationMetrics | app.py:304-318 | One row per sector, strictly in name order. Each is that sector's group metrics: its vacancy total, its row count and a mean experience in [0, 15]. |
| Opportunity.TitleMetrics | app.py:619-630 | One row per job title present, with that title's group metrics, strictly in name order as `groupby` sorts its keys. |
| Opportunity.TitleSampleTies | app.py:619-637 | The chart's sample of the title metrics keeps, of two titles with the same vacancies, the one first in name order. |
| Opportunity.AssignQuadrant | app.py:642-650 | The quadrant is on the high-demand side exactly when vacancies >= the median. It is on the high-competition side exactly when applications >= the median. |
| Opportunity.QuadrantIsUnique | app.py:642-652 | Every title gets exactly one of the four quadrants: the only one on its side of both medians. |
| Opportunity.AtBothMedians | app.py:643-646 | A title exactly at both medians is a "Competitive Market". |
| Opportunity.DemandSideMonotone | app.py:642-650 | Raising vacancies never moves a title off the high-demand side. |
| Opportunity.Sample | app.py:634-637 | Up to 50 titles are kept as they are. Above 50 it keeps 50, largest vacancies first. The sample is a sub-multiset, and no dropped title has more vacancies than a kept one. With `keep='first'` and titles in name order, a dropped title tied with a kept one comes after it in name order. |
| Opportunity.SampleDominance | app.py:636-637 | `nlargest(50)` keeps a sub-multiset of the titles, and no title left out has more vacancies than one kept. |
| Opportunity.SampleTies | app.py:636-637 | `nlargest(50)` over titles in name order keeps, of two tied titles, the one first in name order. |
| Opportunity.CleanedRowsBounded | app.py:160-192 | Every exploded row of cleaned postings has a minimum experience in [0, 15]: cleaning clips it and exploding copies each posting unchanged. |
| Opportunity.HiddenDemand | app.py:632-655 | One point per sampled title, in sample order. Each has the quadrant fixed by the two medians and its label. |
| Opportunity.TitleTextEmptyIffNiche | app.py:653-655 | For a non-empty title, the label is empty exactly for a niche market. |
| ExtractSkills.KeptRows | extract_skills.py:51-64 | One posting's output rows are its categories that are neither missing nor empty, one row each and in the categories' order, each with the posting's job id, date and skill. |
| ExtractSkills.ExtractSkills | extract_skills.py:43-64 | No output row has an empty category. A row is in the output exactly when it pairs a source row with one of that row's kept categories. |
| ExtractSkills.ExtractIsFlatten | extract_skills.py:43-64 | The output is each source row's output rows laid end to end, in source order. |
| ExtractSkills.ExtractLength | extract_skills.py:43-64 | The output has as many rows as there are (source row, kept category) pairs. |
| ExtractSkills.UnparsableKeepsNan | extract_skills.py:12-19 | A source row whose categories do not parse yields exactly one row, with category "nan". |
| ExtractSkills.NullCategoryDropped | extract_skills.py:22-26 | A dict whose `category` is null contributes no row. |
| ExtractSkills.RunScript | extract_skills.py:29-82 | A missing source ends with status 1. Otherwise status is 0, the columns are job_id, category, posting_date, skill, and the rows are the extracted rows, none with an empty category. |
| MonthKeys.PadOrder | cat_skills_data_optimizer.py:62 | Zero-padded to the same width, text order is numeric order. |
| MonthKeys.MonthKey | cat_skills_data_optimizer.py:62 | A month key is seven characters with a dash at position 4. |
| MonthKeys.MonthKeyRoundTrip | cat_skills_data_optimizer.py:62 | The `YYYY-MM` text reads back as the year and month it was made from. |
| MonthKeys.MonthKeyInjective | cat_skills_data_optimizer.py:62 | Different months have different keys. |
| MonthKeys.MonthKeyOrder | cat_skills_data_optimizer.py:62-84 | Sorting month keys as text sorts months chronologically. |
| SkillsOptimizer.KeptRowsAreComplete | cat_skills_data_optimizer.py:60-69 | A row reaches the aggregation exactly when its date parsed and skill, category and job id are present. |
| SkillsOptimizer.CountOf | cat_skills_data_optimizer.py:76-78 | A key's job count is the number of distinct job ids among its rows, between 1 and the row count. |
| SkillsOptimizer.Aggregate | cat_skills_data_optimizer.py:76-84 | One row per (month, category, skill) present, strictly ordered by month, then category, then skill, each with its distinct job count. |
| SkillsOptimizer.RowCountedUnderItsKey | cat_skills_data_optimizer.py:59-84 | Every complete input row is counted under its own month, category and skill. |
| SkillsOptimizer.OptimizeFile | cat_skills_data_optimizer.py:44-84 | A file lacking a required column stops with the missing columns, and only then. When no row is complete, the row-reduction percentage divides by zero and nothing is written, and only then. Otherwise the aggregation is written, and it has at least one row. |
| SkillsOptimizer.Optimize | cat_skills_data_optimizer.py:33-36 | A missing input file stops at once, and only a missing file does. |
| TitleBackfill.FirstTitle | refactor_data.py:39 | Absent exactly when no pair has the id; otherwise a title paired with the id. |
| TitleBackfill.TitleMap | refactor_data.py:37-39 | `drop_duplicates(subset=['job_id'])`: job ids are unique, the map is a subsequence of the pairs, and each id keeps its first title. |
| TitleBackfill.UniqueMatch | refactor_data.py:49-53 | With unique job ids, a target id matches exactly its one title, or none. |
| TitleBackfill.UniqueKeysKeepRows | refactor_data.py:39-53 | With unique job ids, the left merge keeps one row per target row, in order. Each row gains its title, or null when unmatched. |
| TitleBackfill.DuplicateKeysDuplicateRows | refactor_data.py:49-53 | Were a job id mapped twice, the merge would duplicate the target row. |
| TitleBackfill.FinalColumns | refactor_data.py:42-69 | A column is in the output exactly when it was in the target or is the title column, and is not `title` or `average_salary`. |
| TitleBackfill.FinalColumnsDistinct | refactor_data.py:42-69 | The output's column names stay distinct. |
| TitleBackfill.OtherColumnsUnchanged | refactor_data.py:60-69 | Every column other than the title and the legacy ones keeps its value. |
| TitleBackfill.Rewrite | refactor_data.py:37-69 | The output is a well-formed table with the final columns and one row per target row. Each row is the target row with the first source title of its job id, or null, and without the legacy columns. |
| TitleBackfill.Backfill | refactor_data.py:10-69 | A missing source or target file, a source without `jobtitle_cleaned`, or a table without `job_id` each end with status 1. The table is written with status 0 exactly when none of these holds, and then it is the rewritten target. |

## Left out

- Streamlit rendering is not modelled. This covers page layout, widgets, charts (including the supply–demand treemap) and the `st.cache_data` caching. These are presentation, not data.
- File I/O is not modelled. Parquet reads and writes, `os.path.exists`, directory creation and every `print` are left out. A file's presence is an `Option` parameter.
- `json.loads` is a parameter: a function from text to an optional decoded value, where None means the call raised.
- `pd.to_datetime` is left out. Rows carry the already-parsed month, with None for a null date (NaT). A date text that does not parse makes the dashboard's `pd.to_datetime` raise (app.py:151); that error path is not modelled.
- The IQR quartiles and the two medians are parameters. `quantile` and `median` interpolation are not modelled.
- Floating point is real arithmetic, and NaN is an explicit `Option`. Rounding and `inf` are not modelled.
- Experience.PayScale: gives None where pandas divides by zero and yields `inf` or NaN.
- Categories.ExtractCategory: Python's `str()` of a decoded value ignores escape sequences inside quoted strings. A `category` or `name` value that is not a string (a number, a boolean, a list) is kept by Python as that value; the model turns it into its `str()` text, which groups the same way only where the texts differ as the values do. A number's text is its JSON spelling, while Python renders a JSON number with a fraction or exponent from its float value (`1e2` becomes `100.0`), and reads `-0` as the integer 0, printed `0`, where the model keeps the text `-0`.
- Order.TopN: ties are kept in input order, which is name order for the sector and title tables. This is what `nlargest` does with its default `keep='first'` (app.py:250, 637), and the contracts state it.
- Aggregates.TopSectors: its name-order tie rule is the model's choice for every metric, which pandas does not promise. The `sort_values(ascending=False)` of app.py:233 and app.py:237 uses an unstable quicksort with no order among equal totals. The `value_counts().head` of app.py:235 orders equal counts by first appearance in the table, so with ties at the cut it may keep a different sector than the model.
- Aggregates.ExecutiveSummary: requires some row with a sector. On a table without one, pandas `idxmax` raises, and that error path is not modelled.
- Aggregates.ArgMax: on a tie it picks the first key in name order. This matches `idxmax` on a `groupby` result. For `value_counts().idxmax()` it is a choice, since `value_counts` orders ties by appearance.
- Opportunity.Summary: `job_id: 'count'` is modelled as the group's row count. It differs only if job ids are missing, which the cleaned table does not have.
- The optional columns the dashboard fills are not modelled: `title` renamed to `jobtitle_cleaned`, `positionlevels`, the default posting date when the column is absent, and `average_salary_cleaned`. Rows carry the final fields.
- TitleBackfill.Rewrite: pandas matches NaN job ids with each other in a merge. The model treats two null ids as equal, which is the same behaviour. The column order of a merge is modelled but not its dtypes.
- ExtractSkills.RunScript: the outer handler is not modelled. It ends with status 130 on a keyboard interrupt and status 1 on any other exception.
- The skills page of the dashboard is not modelled: `load_skills_data` and its top-10 skill timeline. It reads the optimizer's output back, and that output is modelled instead.
- `benchmark_comparison.py` is not modelled. It is a timing script outside the data path.

=== FILE: aggregates.dfy ===
/** The dashboard's aggregations over the exploded table (app.py:216-318):
    KPI totals and leading sectors, the top-sector ranking, the sector filter,
    the demand-velocity series, the bulk-hiring heatmap, the experience
    breakdown and the per-sector education metrics. */
module Aggregates {
  import opened Values
  import opened Seqs
  import opened Order
  import opened Categories
  import opened Cleaning
  import opened Explode
  import opened Groups

  /** The catch-all sector left out of every ranking. */
  const Others: string := "Others"

  /** The sector selector's "no filter" choice. */
  const All: string := "All"

  /** The row is grouped under `sector`. */
  predicate InSector(row: CatRow, sector: string) {
    SectorOf(row) == Some(sector)
  }

  /** The sectors as `groupby('category')` lists them: distinct and sorted. */
  function Sectors(rows: seq<CatRow>): (r: seq<string>)
    ensures StrictlySorted(r, StrLt)
    ensures NoDuplicates(r)
    ensures forall s :: s in r <==> exists row :: row in rows && InSector(row, s)
  {
    StrLtIsStrictTotalOrder();
    GroupKeys(rows, SectorOf, StrLt)
  }

  /** `filter_by_sector`: "All" returns the table itself; any other name
      returns exactly the rows of that sector, in their original order. */
  function FilterBySector(rows: seq<CatRow>, sector: string): (r: seq<CatRow>)
    ensures sector == All ==> r == rows
    ensures sector != All ==> forall row :: row in r <==> row in rows && InSector(row, sector)
    ensures sector != All ==> Subseq(r, rows)
    ensures sector != All ==> forall row :: InSector(row, sector) ==> multiset(r)[row] == multiset(rows)[row]
  {
    if sector == All then rows
    else
      var r := SectorRows(rows, sector);
      assert forall row :: InSector(row, sector) ==> multiset(r)[row] == multiset(rows)[row] by {
        forall row | InSector(row, sector) ensures multiset(r)[row] == multiset(rows)[row] {
          GroupMultiset(rows, SectorOf, sector, row);
        }
      }
      r
  }

  /** The rows of one sector. */
  function SectorRows(rows: seq<CatRow>, sector: string): seq<CatRow> {
    Group(rows, SectorOf, sector)
  }

  /** The quantity a ranking adds up per sector. */
  datatype Metric = NumVacancies | NumViews | PostCount

  function MetricValue(row: CatRow, m: Metric): int {
    match m
    case NumVacancies => row.p.vacancies
    case NumViews => row.p.views
    case PostCount => 1
  }

  /** The metric as a column. */
  function MetricOf(m: Metric): CatRow -> int {
    (x: CatRow) => MetricValue(x, m)
  }

  /** A sector's total of the metric over its rows. */
  function SectorTotal(rows: seq<CatRow>, sector: string, m: Metric): int {
    GroupTotal(rows, SectorOf, MetricOf(m), sector)
  }

  lemma {:induction false} CountIsLength(rows: seq<CatRow>)
    ensures Sum(rows, MetricOf(PostCount)) == |rows|
  {
    if |rows| > 0 {
      CountIsLength(rows[1..]);
    }
  }

  /** Counting posts per sector counts that sector's rows. */
  lemma PostCountIsRowCount(rows: seq<CatRow>, sector: string)
    ensures SectorTotal(rows, sector, PostCount) == |SectorRows(rows, sector)|
  {
    CountIsLength(SectorRows(rows, sector));
  }

  /** `idxmax` over the keys in order: the first key with the largest value. */
  function ArgMax(keys: seq<string>, f: string -> int): (k: string)
    requires |keys| > 0
    ensures k in keys
    ensures forall x :: x in keys ==> f(x) <= f(k)
    ensures exists j :: 0 <= j < |keys| && keys[j] == k && forall i :: 0 <= i < j ==> f(keys[i]) < f(k)
  {
    if |keys| == 1 then keys[0]
    else
      var b := ArgMax(keys[1..], f);
      assert forall x :: x in keys <==> x == keys[0] || x in keys[1..];
      if f(keys[0]) >= f(b) then keys[0]
      else
        ghost var j :| 0 <= j < |keys[1..]| && keys[1..][j] == b
                       && forall i :: 0 <= i < j ==> f(keys[1..][i]) < f(b);
        assert keys[j + 1] == b;
        assert forall i :: 1 <= i < j + 1 ==> keys[i] == keys[1..][i - 1];
        b
  }

  /** Over keys in name order, the first key with the largest value beats
      every key that comes before it in name order. */
  lemma FirstMaxBeatsEarlier(keys: seq<string>, f: string -> int, k: string)
    requires StrictlySorted(keys, StrLt)
    requires exists j :: 0 <= j < |keys| && keys[j] == k && forall i :: 0 <= i < j ==> f(keys[i]) < f(k)
    ensures forall t :: t in keys && StrLt(t, k) ==> f(t) < f(k)
  {
    StrLtIsStrictTotalOrder();
    var j :| 0 <= j < |keys| && keys[j] == k && forall i :: 0 <= i < j ==> f(keys[i]) < f(k);
    forall t | t in keys && StrLt(t, k) ensures f(t) < f(k) {
      var i :| 0 <= i < |keys| && keys[i] == t;
      assert i != j;
      assert !(j < i);
    }
  }

  /** Some row has a sector: what `idxmax` needs to have a group to pick. */
  predicate HasSector(rows: seq<CatRow>) {
    exists i :: 0 <= i < |rows| && SectorOf(rows[i]).Some?
  }

  /** The sector with the largest total (the first in name order on a tie). */
  function TopSector(rows: seq<CatRow>, m: Metric): (s: string)
    requires HasSector(rows)
    ensures exists row :: row in rows && InSector(row, s)
    ensures forall t :: t in Sectors(rows) ==> SectorTotal(rows, t, m) <= SectorTotal(rows, s, m)
    ensures forall t :: t in Sectors(rows) && StrLt(t, s) ==> SectorTotal(rows, t, m) < SectorTotal(rows, s, m)
  {
    var i :| 0 <= i < |rows| && SectorOf(rows[i]).Some?;
    assert rows[i] in rows && InSector(rows[i], SectorOf(rows[i]).value);
    var keys := Sectors(rows);
    assert SectorOf(rows[i]).value in keys;
    var f := (t: string) => SectorTotal(rows, t, m);
    var s := ArgMax(keys, f);
    FirstMaxBeatsEarlier(keys, f, s);
    s
  }

  /** The executive summary's numbers (app.py:216-226). */
  datatype ExecutiveMetrics = ExecutiveMetrics(
    totalVacancies: int,
    totalPosts: nat,
    totalViews: int,
    topSectorVacancy: string,
    topSectorPosts: string,
    topSectorViews: string)

  /** `calculate_executive_metrics`: totals over every exploded row, and the
      sector leading each of vacancies, posts and views. */
  function ExecutiveSummary(rows: seq<CatRow>): (e: ExecutiveMetrics)
    requires HasSector(rows)
    ensures e.totalPosts == |rows|
    ensures e.totalVacancies == Sum(rows, MetricOf(NumVacancies))
    ensures e.totalViews == Sum(rows, MetricOf(NumViews))
    ensures forall t :: t in Sectors(rows) ==>
              && SectorTotal(rows, t, NumVacancies) <= SectorTotal(rows, e.topSectorVacancy, NumVacancies)
              && |SectorRows(rows, t)| <= |SectorRows(rows, e.topSectorPosts)|
              && SectorTotal(rows, t, NumViews) <= SectorTotal(rows, e.topSectorViews, NumViews)
    ensures e.topSectorVacancy in Sectors(rows) && e.topSectorPosts in Sectors(rows)
    ensures e.topSectorViews in Sectors(rows)
    ensures forall t :: t in Sectors(rows) && StrLt(t, e.topSectorVacancy) ==>
              SectorTotal(rows, t, NumVacancies) < SectorTotal(rows, e.topSectorVacancy, NumVacancies)
    ensures forall t :: t in Sectors(rows) && StrLt(t, e.topSectorViews) ==>
              SectorTotal(rows, t, NumViews) < SectorTotal(rows, e.topSectorViews, NumViews)
  {
    var posts := TopSector(rows, PostCount);
    forall t | t in Sectors(rows) ensures |SectorRows(rows, t)| <= |SectorRows(rows, posts)| {
      PostCountIsRowCount(rows, t);
      PostCountIsRowCount(rows, posts);
    }
    ExecutiveMetrics(
      Sum(rows, MetricOf(NumVacancies)),
      |rows|,
      Sum(rows, MetricOf(NumViews)),
      TopSector(rows, NumVacancies),
      posts,
      TopSector(rows, NumViews))
  }

  /** The sectors a ranking may list: every sector but "Others". */
  function Rankable(rows: seq<CatRow>): (r: seq<string>)
    ensures NoDuplicates(r)
    ensures StrictlySorted(r, StrLt)
    ensures forall s :: s in r <==> s in Sectors(rows) && s != Others
  {
    var sectors := Sectors(rows);
    FilterNoDuplicates(sectors, (s: string) => s != Others);
    FilterSorted(sectors, (s: string) => s != Others, StrLt);
    Filter(sectors, (s: string) => s != Others)
  }

  /** Each rankable sector paired with its total. */
  function SectorTotals(rows: seq<CatRow>, m: Metric): seq<(string, int)> {
    Totals(rows, SectorOf, MetricOf(m), Rankable(rows))
  }

  /** `get_top_sectors_data`: at most `limit` sectors, never "Others", each
      with its own total, largest first; every sector left out totals no more
      than any sector listed, and one left out with the same total as a
      listed one comes after it in name order. */
  function TopSectors(rows: seq<CatRow>, m: Metric, limit: nat): (r: seq<(string, int)>)
    ensures |r| == if limit < |Rankable(rows)| then limit else |Rankable(rows)|
    ensures forall y :: y in r ==> y.0 != Others && y.0 in Sectors(rows) && y.1 == SectorTotal(rows, y.0, m)
    ensures NonIncreasing(r, Snd)
    ensures NoDuplicates(Firsts(r))
    ensures forall s :: s in Rankable(rows) && s !in Firsts(r) ==>
              forall y :: y in r ==> SectorTotal(rows, s, m) <= y.1
    ensures forall s, y :: s in Rankable(rows) && s !in Firsts(r) && y in r && SectorTotal(rows, s, m) == y.1 ==>
              StrLt(y.0, s)
  {
    var t := SectorTotals(rows, m);
    var r := TopN(t, Snd, limit);
    TopSectorsFacts(rows, m, t, r);
    SectorTotalsDistinct(rows, m);
    TiesInNameOrder(rows, m, t, r);
    r
  }

  /** Of two sectors with equal totals, the ranking keeps the one first in
      name order: the totals are listed in name order and the selection is
      stable. */
  lemma TiesInNameOrder(rows: seq<CatRow>, m: Metric, t: seq<(string, int)>, r: seq<(string, int)>)
    requires t == SectorTotals(rows, m)
    requires multiset(r) <= multiset(t)
    requires forall a, b :: 0 <= a < b < |t| && t[a] !in r && t[b] in r ==> Snd(t[a]) < Snd(t[b])
    ensures forall s, y :: s in Rankable(rows) && s !in Firsts(r) && y in r && SectorTotal(rows, s, m) == y.1 ==>
              StrLt(y.0, s)
  {
    TiesByKey(Rankable(rows), (s: string) => SectorTotal(rows, s, m), t, r, StrLt);
  }

  /** In a table that lists its keys in order, a selection that keeps the
      earlier of two equal totals leaves out only keys that come after every
      chosen key with the same total. */
  lemma TiesByKey<K>(ks: seq<K>, total: K -> int, t: seq<(K, int)>, r: seq<(K, int)>, lt: (K, K) -> bool)
    requires |t| == |ks| && StrictlySorted(ks, lt)
    requires forall i :: 0 <= i < |t| ==> t[i] == (ks[i], total(ks[i]))
    requires multiset(r) <= multiset(t)
    requires forall a, b :: 0 <= a < b < |t| && t[a] !in r && t[b] in r ==> Snd(t[a]) < Snd(t[b])
    ensures forall s, y :: s in ks && s !in Firsts(r) && y in r && total(s) == y.1 ==> lt(y.0, s)
  {
    forall s, y | s in ks && s !in Firsts(r) && y in r && total(s) == y.1
      ensures lt(y.0, s)
    {
      var a :| 0 <= a < |ks| && ks[a] == s;
      assert y in multiset(t);
      var b :| 0 <= b < |t| && t[b] == y;
      assert t[a] !in r;
      assert a != b;
      assert !(a < b);
    }
  }

  /** The (sector, total) pairs are distinct, since their sectors are. */
  lemma SectorTotalsDistinct(rows: seq<CatRow>, m: Metric)
    ensures NoDuplicates(SectorTotals(rows, m))
  {
    var t := SectorTotals(rows, m);
    var keys := Rankable(rows);
    forall i, j | 0 <= i < j < |t| ensures t[i] != t[j] {
      assert t[i].0 == keys[i] && t[j].0 == keys[j];
    }
  }

  /** Every pair drawn from the totals names a rankable sector with its own total. */
  lemma FromSectorTotals(rows: seq<CatRow>, m: Metric, y: (string, int))
    requires y in SectorTotals(rows, m)
    ensures y.0 in Rankable(rows) && y.1 == SectorTotal(rows, y.0, m)
  {
    var t := SectorTotals(rows, m);
    var k :| 0 <= k < |t| && t[k] == y;
  }

  lemma TopSectorsFacts(rows: seq<CatRow>, m: Metric, t: seq<(string, int)>, r: seq<(string, int)>)
    requires t == SectorTotals(rows, m)
    requires multiset(r) <= multiset(t)
    requires forall y :: multiset(r)[y] < multiset(t)[y] ==>
               forall i :: 0 <= i < |r| ==> Snd(y) <= Snd(r[i])
    ensures forall y :: y in r ==> y.0 != Others && y.0 in Sectors(rows) && y.1 == SectorTotal(rows, y.0, m)
    ensures NoDuplicates(Firsts(r))
    ensures forall s :: s in Rankable(rows) && s !in Firsts(r) ==>
              forall y :: y in r ==> SectorTotal(rows, s, m) <= y.1
  {
    forall y | y in r
      ensures y.0 in Rankable(rows) && y.1 == SectorTotal(rows, y.0, m)
    {
      assert y in multiset(r);
      FromSectorTotals(rows, m, y);
    }
    SectorTotalsDistinct(rows, m);
    SubMultisetNoDuplicates(r, t);
    var names := Firsts(r);
    forall i, j | 0 <= i < j < |names| ensures names[i] != names[j] {
      assert r[i] in r && r[j] in r && r[i] != r[j];
    }
    forall s | s in Rankable(rows) && s !in names
      ensures forall y :: y in r ==> SectorTotal(rows, s, m) <= y.1
    {
      LeftOutDominated(rows, m, t, r, s);
    }
  }

  lemma LeftOutDominated(rows: seq<CatRow>, m: Metric, t: seq<(string, int)>, r: seq<(string, int)>, s: string)
    requires t == SectorTotals(rows, m)
    requires forall y :: multiset(r)[y] < multiset(t)[y] ==>
               forall i :: 0 <= i < |r| ==> Snd(y) <= Snd(r[i])
    requires s in Rankable(rows) && s !in Firsts(r)
    ensures forall y :: y in r ==> SectorTotal(rows, s, m) <= y.1
  {
    var keys := Rankable(rows);
    var k :| 0 <= k < |keys| && keys[k] == s;
    var y := t[k];
    assert y.0 == s;
    assert forall i :: 0 <= i < |r| ==> r[i].0 != s by {
      forall i | 0 <= i < |r| ensures r[i].0 != s {
        assert Firsts(r)[i] in Firsts(r);
      }
    }
    assert y !in r;
    assert y in multiset(t);
    assert multiset(r)[y] < multiset(t)[y];
  }

  /** The names of the `n` sectors with the most vacancies, largest first
      (`groupby('category')['num_vacancies'].sum().nlargest(n).index` after
      dropping "Others"); of sectors tied at the cut, `keep='first'` keeps
      those first in the groupby's name order. */
  function TopSectorNames(rows: seq<CatRow>, n: nat): (r: seq<string>)
    ensures |r| == if n < |Rankable(rows)| then n else |Rankable(rows)|
    ensures NoDuplicates(r)
    ensures forall s :: s in r ==> s != Others && s in Sectors(rows)
    ensures forall s :: s in Rankable(rows) && s !in r ==>
              forall t :: t in r ==> SectorTotal(rows, s, NumVacancies) <= SectorTotal(rows, t, NumVacancies)
    ensures forall s, t :: s in Rankable(rows) && s !in r && t in r
                           && SectorTotal(rows, s, NumVacancies) == SectorTotal(rows, t, NumVacancies) ==>
              StrLt(t, s)
  {
    var top := TopSectors(rows, NumVacancies, n);
    var r := Firsts(top);
    TopSectorNamesFacts(rows, top, r);
    r
  }

  lemma TopSectorNamesFacts(rows: seq<CatRow>, top: seq<(string, int)>, r: seq<string>)
    requires forall y :: y in top ==>
               y.0 != Others && y.0 in Sectors(rows) && y.1 == SectorTotal(rows, y.0, NumVacancies)
    requires forall s :: s in Rankable(rows) && s !in r ==>
               forall y :: y in top ==> SectorTotal(rows, s, NumVacancies) <= y.1
    requires forall s, y :: s in Rankable(rows) && s !in r && y in top && SectorTotal(rows, s, NumVacancies) == y.1 ==>
               StrLt(y.0, s)
    requires r == Firsts(top)
    ensures forall s :: s in r ==> s != Others && s in Sectors(rows)
    ensures forall s :: s in Rankable(rows) && s !in r ==>
              forall t :: t in r ==> SectorTotal(rows, s, NumVacancies) <= SectorTotal(rows, t, NumVacancies)
    ensures forall s, t :: s in Rankable(rows) && s !in r && t in r
                           && SectorTotal(rows, s, NumVacancies) == SectorTotal(rows, t, NumVacancies) ==>
              StrLt(t, s)
  {
    forall t | t in r ensures t != Others && t in Sectors(rows) && exists y :: y in top && y == (t, SectorTotal(rows, t, NumVacancies)) {
      var i :| 0 <= i < |r| && r[i] == t;
      assert top[i] in top;
    }
  }

  /** Every row has a sector: the sector totals add up to the table's total. */
  lemma SectorTotalsAddUp(rows: seq<CatRow>, m: Metric)
    requires forall i :: 0 <= i < |rows| ==> SectorOf(rows[i]).Some?
    ensures KeysTotal(rows, SectorOf, MetricOf(m), Sectors(rows)) == Sum(rows, MetricOf(m))
  {
    StrLtIsStrictTotalOrder();
    GroupKeysPartition(rows, SectorOf, MetricOf(m), StrLt);
    KeyedSumAll(rows, SectorOf, MetricOf(m));
  }
}

=== FILE: categories.dfy ===
/** The category field of a posting: a JSON-like list written with Python
    quotes, parsed leniently, fanned out element by element, and reduced to one
    sector name per element. The dashboard (app.py:112-125) and the skills
    extraction script (extract_skills.py:12-26) carry identical copies of this
    logic; the model defines it once. */
module Categories {
  import opened Values

  /** `s.replace("'", '"')`. */
  function SwapQuotes(s: string): (r: string)
    ensures |r| == |s|
    ensures forall i :: 0 <= i < |s| ==> r[i] == (if s[i] == '\'' then '"' else s[i])
  {
    if |s| == 0 then ""
    else [if s[0] == '\'' then '"' else s[0]] + SwapQuotes(s[1..])
  }

  /** The swapped text holds no single quote, and swapping again changes nothing. */
  lemma SwapQuotesNormalises(s: string)
    ensures '\'' !in SwapQuotes(s)
    ensures SwapQuotes(SwapQuotes(s)) == SwapQuotes(s)
  {
    var r := SwapQuotes(s);
    assert forall i :: 0 <= i < |r| ==> r[i] != '\'';
  }

  /** The parser behind the list syntax: the decoded document, or None where
      decoding raises. */
  type Loads = string -> Option<Json>

  /** The empty list that stands for "no categories". */
  const NoCategories: Json := JArray([])

  /** `_parse_categories` / `parse_categories`: decode a text cell after
      turning Python quotes into JSON quotes; anything that is not text, and
      any text that fails to decode, yields the empty list. */
  function ParseCategories(cell: Cell, loads: Loads): (r: Json)
    ensures cell.OtherCell? ==> r == NoCategories
    ensures cell.TextCell? && loads(SwapQuotes(cell.s)).None? ==> r == NoCategories
    ensures cell.TextCell? && loads(SwapQuotes(cell.s)).Some? ==> r == loads(SwapQuotes(cell.s)).value
  {
    match cell
    case OtherCell => NoCategories
    case TextCell(s) =>
      match loads(SwapQuotes(s))
      case None => NoCategories
      case Some(doc) => doc
  }

  /** One value of the column pandas `explode` produces: an element of the
      parsed document, or the NaN placed on the row of an empty list. */
  datatype Element = Item(j: Json) | Nan

  /** pandas `explode` on one cell: a list yields its items and a dict its
      keys (both list-like; a key bound twice in the text is one dict key),
      an empty list or dict yields a single NaN, and any other value (a
      string included) stays as it is. */
  function Elements(doc: Json): (r: seq<Element>)
    ensures |r| >= 1
    ensures doc.JArray? && |doc.items| > 0 ==>
              |r| == |doc.items| && forall i :: 0 <= i < |r| ==> r[i] == Item(doc.items[i])
    ensures doc.JObject? && |doc.entries| > 0 ==>
              |r| == |Keys(doc.entries)| && forall i :: 0 <= i < |r| ==> r[i] == Item(JString(Keys(doc.entries)[i]))
    ensures (doc.JArray? && |doc.items| == 0) || (doc.JObject? && |doc.entries| == 0) <==> r == [Nan]
    ensures !doc.JArray? && !doc.JObject? ==> r == [Item(doc)]
  {
    match doc
    case JArray(items) =>
      if |items| == 0 then [Nan]
      else
        var r := seq(|items|, i requires 0 <= i < |items| => Item(items[i]));
        assert r[0].Item?;
        r
    case JObject(entries) =>
      if |entries| == 0 then [Nan]
      else
        var ks := Keys(entries);
        var r := seq(|ks|, i requires 0 <= i < |ks| => Item(JString(ks[i])));
        assert r[0].Item?;
        r
    case _ => [Item(doc)]
  }

  /** The sector a fanned-out row ends up with. `Missing` is a dict whose chosen
      key maps to JSON null (pandas treats it as missing); `EmptyList` is the
      NaN of an empty list, whose text form is "nan". */
  datatype Category = Name(s: string) | Missing | EmptyList

  /** The text the category column holds, or None where it holds a missing value. */
  function CategoryText(c: Category): (r: Option<string>)
    ensures r.None? <==> c.Missing?
    ensures c.EmptyList? ==> r == Some("nan")
  {
    match c
    case Name(s) => Some(s)
    case Missing => None
    case EmptyList => Some("nan")
  }

  /** The category a dict-valued key contributes: a JSON string as itself,
      null as missing, anything else by its text. */
  function FromValue(v: Json): Category {
    match v
    case JString(s) => Name(s)
    case JNull => Missing
    case _ => Name(Str(v))
  }

  /** `_extract_category` / `extract_category`: a dict gives its `category`
      value, failing that its `name` value, failing that its own text; any
      other element gives its text (`str(nan)` being "nan"). */
  function ExtractCategory(e: Element): (r: Category)
    ensures e.Nan? ==> r == EmptyList
    ensures e.Item? && e.j.JObject? && Lookup(e.j.entries, "category").Some? ==>
              r == FromValue(Lookup(e.j.entries, "category").value)
    ensures e.Item? && e.j.JObject? && Lookup(e.j.entries, "category").None?
              && Lookup(e.j.entries, "name").Some? ==>
              r == FromValue(Lookup(e.j.entries, "name").value)
    ensures e.Item? && e.j.JObject? && Lookup(e.j.entries, "category").None?
              && Lookup(e.j.entries, "name").None? ==>
              r == Name(Str(e.j))
    ensures e.Item? && !e.j.JObject? ==> r == Name(Str(e.j))
  {
    if e.Nan? then EmptyList
    else if !e.j.JObject? then Name(Str(e.j))
    else if Lookup(e.j.entries, "category").Some? then FromValue(Lookup(e.j.entries, "category").value)
    else if Lookup(e.j.entries, "name").Some? then FromValue(Lookup(e.j.entries, "name").value)
    else Name(Str(e.j))
  }

  /** Parse a posting's category cell and name each element: the categories
      its fanned-out rows receive, in order. */
  function CategoriesOf(cell: Cell, loads: Loads): (r: seq<Category>)
    ensures |r| == |Elements(ParseCategories(cell, loads))|
    ensures |r| >= 1
    ensures forall i :: 0 <= i < |r| ==> r[i] == ExtractCategory(Elements(ParseCategories(cell, loads))[i])
  {
    var es := Elements(ParseCategories(cell, loads));
    seq(|es|, i requires 0 <= i < |es| => ExtractCategory(es[i]))
  }

  /** A cell that is not text, or whose text does not decode, fans out to a
      single row whose category is the "nan" text of the empty list. */
  lemma UnparsableGivesSingleNan(cell: Cell, loads: Loads)
    requires cell.OtherCell? || loads(SwapQuotes(cell.s)).None?
    ensures CategoriesOf(cell, loads) == [EmptyList]
    ensures CategoryText(CategoriesOf(cell, loads)[0]) == Some("nan")
  {
  }

  /** A key written twice in a dict is one dict key, so it explodes to one row. */
  lemma RepeatedKeyExplodesOnce()
    ensures Elements(JObject([("a", JNull), ("a", JNull)])) == [Item(JString("a"))]
  {
    var e := [("a", JNull), ("a", JNull)];
    assert Keys(e[..1]) == ["a"];
    assert Keys(e) == ["a"];
  }

  /** A list of plain strings fans out to exactly those names. */
  lemma StringListGivesNames(cell: Cell, loads: Loads, names: seq<string>)
    requires cell.TextCell? && |names| > 0
    requires loads(SwapQuotes(cell.s)) == Some(JArray(seq(|names|, i requires 0 <= i < |names| => JString(names[i]))))
    ensures CategoriesOf(cell, loads) == seq(|names|, i requires 0 <= i < |names| => Name(names[i]))
  {
  }
}

=== FILE: cleaning.dfy ===
/** The per-row part of the dashboard's load step (app.py:97-105, 157-182):
    defaults for missing counts, IQR-fence clipping of the minimum experience,
    clipping to [0, 15], and the five experience segments. The quartiles that
    define the fences are computed over the whole column and enter here as
    parameters. */
module Cleaning {
  import opened Values
  import opened Order

  /** A posting month (the `month_year` period). */
  datatype Month = Month(year: int, month: int)

  /** A posting as read from the cleaned data file, with missing values. */
  datatype RawPosting = RawPosting(
    jobId: string,
    title: Option<string>,
    categories: Cell,
    vacancies: Option<int>,
    applications: Option<int>,
    views: Option<int>,       // None: missing, or text that is not a number
    minExp: Option<real>,
    salary: real,
    month: Option<Month>)     // None: a null posting_date, which `to_datetime` makes NaT

  /** The five experience segments, in the order their labels sort. */
  datatype Segment = Fresh | Junior | Mid | Senior | Lead

  /** The label the dashboard shows; the leading digit makes the labels sort
      in segment order. */
  function SegmentLabel(s: Segment): string {
    match s
    case Fresh => "1. Fresh / Entry (0 yrs)"
    case Junior => "2. Junior (1-2 yrs)"
    case Mid => "3. Mid-Level (3-5 yrs)"
    case Senior => "4. Senior (6-8 yrs)"
    case Lead => "5. Lead / Expert (9+ yrs)"
  }

  /** Position of a segment in the order of its label. */
  function Rank(s: Segment): nat {
    match s
    case Fresh => 1
    case Junior => 2
    case Mid => 3
    case Senior => 4
    case Lead => 5
  }

  /** A posting after cleaning. */
  datatype Posting = Posting(
    jobId: string,
    title: Option<string>,
    categories: Cell,
    vacancies: int,
    applications: int,
    views: int,
    minExp: real,
    segment: Segment,
    salary: real,
    month: Option<Month>)

  /** The lower IQR fence, Q1 - 1.5 * IQR. */
  function LowerFence(q1: real, q3: real): real {
    q1 - 3.0 / 2.0 * (q3 - q1)
  }

  /** The upper IQR fence, Q3 + 1.5 * IQR. */
  function UpperFence(q1: real, q3: real): real {
    q3 + 3.0 / 2.0 * (q3 - q1)
  }

  /** Quartiles in order give fences in order. */
  lemma FencesOrdered(q1: real, q3: real)
    requires q1 <= q3
    ensures LowerFence(q1, q3) <= q1 <= q3 <= UpperFence(q1, q3)
  {
  }

  /** `_remove_outliers` for one value: above the upper fence becomes the
      upper fence, below the lower fence becomes the lower fence, anything
      else is kept. */
  function ClipOutliers(x: real, q1: real, q3: real): (r: real)
    ensures r == x || r == LowerFence(q1, q3) || r == UpperFence(q1, q3)
    ensures LowerFence(q1, q3) <= x <= UpperFence(q1, q3) ==> r == x
    ensures q1 <= q3 ==> LowerFence(q1, q3) <= r <= UpperFence(q1, q3)
    ensures x > UpperFence(q1, q3) ==> r == UpperFence(q1, q3)
    ensures x < LowerFence(q1, q3) && x <= UpperFence(q1, q3) ==> r == LowerFence(q1, q3)
  {
    var lower := LowerFence(q1, q3);
    var upper := UpperFence(q1, q3);
    if x > upper then upper else if x < lower then lower else x
  }

  /** `np.clip(x, 0, 15)`. */
  function ClipYears(x: real): (r: real)
    ensures 0.0 <= r <= 15.0
    ensures 0.0 <= x <= 15.0 ==> r == x
    ensures x < 0.0 ==> r == 0.0
    ensures x > 15.0 ==> r == 15.0
  {
    if x < 0.0 then 0.0 else if x > 15.0 then 15.0 else x
  }

  /** `categorize_exp`: exactly zero years is Fresh, then each segment
      covers up to and including its upper bound (2, 5, 8). */
  function Categorize(years: real): Segment {
    if years == 0.0 then Fresh
    else if years <= 2.0 then Junior
    else if years <= 5.0 then Mid
    else if years <= 8.0 then Senior
    else Lead
  }

  /** The band of years each segment covers, stated independently of the
      cascade above: Fresh is {0}, Junior (0, 2], Mid (2, 5], Senior (5, 8],
      Lead (8, infinity). */
  predicate InBand(years: real, s: Segment) {
    match s
    case Fresh => years == 0.0
    case Junior => 0.0 < years <= 2.0
    case Mid => 2.0 < years <= 5.0
    case Senior => 5.0 < years <= 8.0
    case Lead => 8.0 < years
  }

  /** On non-negative years the segment is exactly the band that holds them. */
  lemma CategorizeMatchesBands(years: real, s: Segment)
    requires years >= 0.0
    ensures Categorize(years) == s <==> InBand(years, s)
  {
  }

  /** The segment never goes down as the experience requirement goes up,
      as long as it is non-negative (which clipping guarantees). */
  lemma CategorizeMonotone(a: real, b: real)
    requires 0.0 <= a <= b
    ensures Rank(Categorize(a)) <= Rank(Categorize(b))
  {
  }

  /** The boundary years of each segment. */
  lemma CategorizeBoundaries()
    ensures Categorize(0.0) == Fresh && Categorize(0.5) == Junior && Categorize(2.0) == Junior
    ensures Categorize(3.0) == Mid && Categorize(5.0) == Mid && Categorize(8.0) == Senior
    ensures Categorize(9.0) == Lead && Categorize(15.0) == Lead
  {
  }

  /** Without the clip, a negative requirement would be called Junior and the
      order of segments would break; the clip makes this unreachable. */
  lemma NegativeYearsWouldBeJunior()
    ensures Categorize(-1.0) == Junior && Rank(Categorize(-1.0)) > Rank(Categorize(0.0))
  {
  }

  /** The labels start with their rank digit, so sorting by label sorts by segment. */
  lemma LabelStartsWithRank(s: Segment)
    ensures |SegmentLabel(s)| > 0 && SegmentLabel(s)[0] as int == '0' as int + Rank(s)
  {
  }

  /** Comparing two labels as text compares the segments' seniority. */
  lemma LabelOrder(a: Segment, b: Segment)
    ensures StrLt(SegmentLabel(a), SegmentLabel(b)) <==> Rank(a) < Rank(b)
  {
    if a == b {
      StrLtIrreflexive(SegmentLabel(a));
    }
  }

  /** The cleaned minimum experience of a row: missing becomes 0, then the IQR
      clip, then the [0, 15] clip. */
  function CleanYears(minExp: Option<real>, q1: real, q3: real): (r: real)
    ensures 0.0 <= r <= 15.0
    ensures minExp.None? && LowerFence(q1, q3) <= 0.0 <= UpperFence(q1, q3) ==> r == 0.0
    ensures (minExp.Some? && LowerFence(q1, q3) <= minExp.value <= UpperFence(q1, q3)
              && 0.0 <= minExp.value <= 15.0) ==> r == minExp.value
  {
    ClipYears(ClipOutliers(minExp.GetOr(0.0), q1, q3))
  }

  /** The fill / clip / segment step for one posting (app.py:158-182). */
  function Clean(raw: RawPosting, q1: real, q3: real): (p: Posting)
    ensures p.jobId == raw.jobId && p.title == raw.title && p.categories == raw.categories
    ensures p.salary == raw.salary && p.month == raw.month
    ensures raw.vacancies.None? ==> p.vacancies == 1
    ensures raw.vacancies.Some? ==> p.vacancies == raw.vacancies.value
    ensures raw.applications.None? ==> p.applications == 0
    ensures raw.applications.Some? ==> p.applications == raw.applications.value
    ensures raw.views.None? ==> p.views == 0
    ensures raw.views.Some? ==> p.views == raw.views.value
    ensures p.minExp == CleanYears(raw.minExp, q1, q3)
    ensures 0.0 <= p.minExp <= 15.0
    ensures InBand(p.minExp, p.segment)
  {
    var years := CleanYears(raw.minExp, q1, q3);
    CategorizeMatchesBands(years, Categorize(years));
    Posting(raw.jobId, raw.title, raw.categories,
            raw.vacancies.GetOr(1), raw.applications.GetOr(0), raw.views.GetOr(0),
            years, Categorize(years), raw.salary, raw.month)
  }

  /** A posting as the load step leaves it. */
  predicate Cleaned(p: Posting) {
    0.0 <= p.minExp <= 15.0 && p.segment == Categorize(p.minExp)
  }

  /** The load step over a whole table, row by row and in order. */
  function CleanAll(raws: seq<RawPosting>, q1: real, q3: real): (ps: seq<Posting>)
    ensures |ps| == |raws|
    ensures forall i :: 0 <= i < |ps| ==> ps[i] == Clean(raws[i], q1, q3) && Cleaned(ps[i])
  {
    seq(|raws|, i requires 0 <= i < |raws| => Clean(raws[i], q1, q3))
  }
}

=== FILE: experience.dfy ===
/** `get_experience_metrics` (app.py:287-302): within one sector (or all of
    them), the vacancy-weighted average salary and the vacancy total of each
    experience segment present, segments in label order. */
module Experience {
  import opened Values
  import opened Seqs
  import opened Order
  import opened Groups
  import opened Cleaning
  import opened Explode
  import opened Aggregates

  /** The segment column as a group key; every row has one. */
  function SegmentOf(x: CatRow): Option<Segment> {
    Some(x.p.segment)
  }

  /** The order `groupby('exp_segment')` lists segments in: by label, which
      is by rank since each label starts with its rank digit (LabelOrder). */
  predicate SegmentLt(a: Segment, b: Segment) {
    Rank(a) < Rank(b)
  }

  lemma SegmentLtIsStrictTotalOrder()
    ensures StrictTotalOrder(SegmentLt)
  {
  }

  function Vacancies(x: CatRow): int {
    x.p.vacancies
  }

  /** A row's salary weighted by its vacancies. */
  function WeightedSalary(x: CatRow): real {
    x.p.salary * x.p.vacancies as real
  }

  /** The vacancy-weighted mean salary of a group; None where the group's
      vacancies add up to 0 (pandas would divide by zero there). */
  function PayScale(g: seq<CatRow>): (r: Option<real>)
    ensures r.None? <==> Sum(g, Vacancies) == 0
    ensures r.Some? ==> r.value * Sum(g, Vacancies) as real == SumReal(g, WeightedSalary)
  {
    var total := Sum(g, Vacancies);
    if total == 0 then None else Some(SumReal(g, WeightedSalary) / total as real)
  }

  /** A weighted sum with non-negative weights lies between the smallest and
      the largest value times the total weight. */
  lemma {:induction false} WeightedSumBounds(g: seq<CatRow>, lo: real, hi: real)
    requires forall i :: 0 <= i < |g| ==> g[i].p.vacancies >= 0 && lo <= g[i].p.salary <= hi
    ensures lo * Sum(g, Vacancies) as real <= SumReal(g, WeightedSalary) <= hi * Sum(g, Vacancies) as real
  {
    if |g| > 0 {
      WeightedSumBounds(g[1..], lo, hi);
      var v := g[0].p.vacancies as real;
      var rest := Sum(g[1..], Vacancies) as real;
      ScaleBetween(lo, g[0].p.salary, hi, v);
      assert Sum(g, Vacancies) as real == v + rest;
      assert lo * (v + rest) == lo * v + lo * rest;
      assert hi * (v + rest) == hi * v + hi * rest;
    }
  }

  lemma ScaleBetween(lo: real, x: real, hi: real, v: real)
    requires lo <= x <= hi && v >= 0.0
    ensures lo * v <= x * v <= hi * v
  {
  }

  /** The weighted mean lies within the salaries it averages. */
  lemma PayScaleWithinSalaries(g: seq<CatRow>, lo: real, hi: real)
    requires forall i :: 0 <= i < |g| ==> g[i].p.vacancies >= 0 && lo <= g[i].p.salary <= hi
    requires PayScale(g).Some?
    ensures lo <= PayScale(g).value <= hi
  {
    WeightedSumBounds(g, lo, hi);
    var total := Sum(g, Vacancies) as real;
    NonNegativeSum(g);
    var r := PayScale(g).value;
    assert r == SumReal(g, WeightedSalary) / total;
    QuotientBetween(lo, hi, SumReal(g, WeightedSalary), total);
  }

  /** A quotient of a sum bounded by multiples of a positive divisor lies
      between the bounds. */
  lemma QuotientBetween(lo: real, hi: real, s: real, t: real)
    requires t > 0.0 && lo * t <= s <= hi * t
    ensures lo <= s / t <= hi
  {
  }

  lemma {:induction false} NonNegativeSum(g: seq<CatRow>)
    requires forall i :: 0 <= i < |g| ==> g[i].p.vacancies >= 0
    ensures Sum(g, Vacancies) >= 0
  {
    if |g| > 0 {
      NonNegativeSum(g[1..]);
    }
  }

  /** One bar of the seniority pay scale. */
  datatype PayPoint = PayPoint(segment: Segment, avgSalary: Option<real>)

  /** The two experience tables. */
  datatype ExperienceMetrics = ExperienceMetrics(payScale: seq<PayPoint>, gate: seq<(Segment, int)>)

  /** The segments present among the rows, in label order. */
  function Segments(xs: seq<CatRow>): (r: seq<Segment>)
    ensures StrictlySorted(r, SegmentLt)
    ensures forall s :: s in r <==> exists x :: x in xs && x.p.segment == s
  {
    SegmentLtIsStrictTotalOrder();
    var r := GroupKeys(xs, SegmentOf, SegmentLt);
    assert forall x :: SegmentOf(x) == Some(x.p.segment);
    r
  }

  /** `get_experience_metrics`: restrict to the sector (unless "All"), then
      per segment present the weighted salary and the vacancy total, both
      tables in label order. */
  function ExperienceMetricsOf(rows: seq<CatRow>, sector: string): (e: ExperienceMetrics)
    ensures |e.payScale| == |e.gate| == |Segments(FilterBySector(rows, sector))|
    ensures forall i :: 0 <= i < |e.gate| ==>
              && e.gate[i].0 == e.payScale[i].segment == Segments(FilterBySector(rows, sector))[i]
              && e.gate[i].1 == Sum(Group(FilterBySector(rows, sector), SegmentOf, e.gate[i].0), Vacancies)
              && e.payScale[i].avgSalary == PayScale(Group(FilterBySector(rows, sector), SegmentOf, e.gate[i].0))
  {
    var xs := FilterBySector(rows, sector);
    var keys := Segments(xs);
    var pay := seq(|keys|, i requires 0 <= i < |keys| => PayPoint(keys[i], PayScale(Group(xs, SegmentOf, keys[i]))));
    ExperienceMetrics(pay, Totals(xs, SegmentOf, Vacancies, keys))
  }

  /** The experience gate accounts for every vacancy of the sector once. */
  lemma GateAddsUp(rows: seq<CatRow>, sector: string)
    ensures Sum(ExperienceMetricsOf(rows, sector).gate, Snd) == Sum(FilterBySector(rows, sector), Vacancies)
  {
    var xs := FilterBySector(rows, sector);
    SegmentLtIsStrictTotalOrder();
    var keys := GroupKeys(xs, SegmentOf, SegmentLt);
    assert Segments(xs) == keys;
    SumTotals(xs, SegmentOf, Vacancies, keys);
    GroupKeysPartition(xs, SegmentOf, Vacancies, SegmentLt);
    KeyedSumAll(xs, SegmentOf, Vacancies);
  }
}

=== FILE: explode.dfy ===
/** `explode_categories` (app.py:186-192): one row per element of each
    posting's parsed category list, a single row for a posting whose list is
    empty, and every other column copied from the posting. Sector totals over
    the exploded table therefore count a posting once per sector it names. */
module Explode {
  import opened Values
  import opened Seqs
  import opened Categories
  import opened Cleaning

  /** A row of the exploded table: the posting's columns and one category. */
  datatype CatRow = CatRow(p: Posting, category: Category)

  /** The sector a row is grouped under; None for a missing category, which
      pandas leaves out of every `groupby` and `value_counts`. */
  function SectorOf(row: CatRow): Option<string> {
    CategoryText(row.category)
  }

  /** How many rows a posting becomes. */
  function FanOut(p: Posting, loads: Loads): nat {
    |CategoriesOf(p.categories, loads)|
  }

  /** The rows one posting becomes. */
  function RowsOf(p: Posting, loads: Loads): (r: seq<CatRow>)
    ensures |r| == FanOut(p, loads) && |r| >= 1
    ensures forall i :: 0 <= i < |r| ==> r[i] == CatRow(p, CategoriesOf(p.categories, loads)[i])
  {
    var cs := CategoriesOf(p.categories, loads);
    seq(|cs|, i requires 0 <= i < |cs| => CatRow(p, cs[i]))
  }

  /** The exploded table, postings in their original order: the blocks of
      rows of each posting laid end to end. */
  function ExplodeCategories(ps: seq<Posting>, loads: Loads): (r: seq<CatRow>)
    ensures |r| >= |ps|
    ensures forall row :: row in r ==> row.p in ps
  {
    if |ps| == 0 then []
    else
      var head := RowsOf(ps[0], loads);
      var tail := ExplodeCategories(ps[1..], loads);
      assert forall row :: row in head + tail ==> row in head || row in tail;
      head + tail
  }

  /** The per-posting blocks of rows. */
  function Blocks(ps: seq<Posting>, loads: Loads): (b: seq<seq<CatRow>>)
    ensures |b| == |ps|
  {
    seq(|ps|, i requires 0 <= i < |ps| => RowsOf(ps[i], loads))
  }

  lemma BlocksTail(ps: seq<Posting>, loads: Loads)
    requires |ps| > 0
    ensures Blocks(ps, loads)[1..] == Blocks(ps[1..], loads)
    ensures Blocks(ps, loads)[0] == RowsOf(ps[0], loads)
  {
    var b, t := Blocks(ps, loads), Blocks(ps[1..], loads);
    forall i | 0 <= i < |t| ensures b[1..][i] == t[i] {
      assert ps[1..][i] == ps[i + 1];
    }
  }

  lemma {:induction false} ExplodeIsFlatten(ps: seq<Posting>, loads: Loads)
    ensures ExplodeCategories(ps, loads) == Flatten(Blocks(ps, loads))
  {
    if |ps| > 0 {
      ExplodeIsFlatten(ps[1..], loads);
      BlocksTail(ps, loads);
    }
  }

  /** Where the rows of the k-th posting start: the rows of the postings before it. */
  function Offset(ps: seq<Posting>, loads: Loads, k: nat): nat
    requires k <= |ps|
  {
    TotalLength(Blocks(ps, loads)[..k])
  }

  /** The k-th posting's rows sit together in the exploded table, one per
      element of its parsed list and in list order, each carrying the posting
      unchanged. */
  lemma ExplodeBlock(ps: seq<Posting>, loads: Loads, k: nat)
    requires k < |ps|
    ensures Offset(ps, loads, k) + FanOut(ps[k], loads) <= |ExplodeCategories(ps, loads)|
    ensures ExplodeCategories(ps, loads)[Offset(ps, loads, k) .. Offset(ps, loads, k) + FanOut(ps[k], loads)]
            == RowsOf(ps[k], loads)
  {
    var all, bl := ExplodeCategories(ps, loads), Blocks(ps, loads);
    var b, start, n := RowsOf(ps[k], loads), Offset(ps, loads, k), FanOut(ps[k], loads);
    assert all == Flatten(bl) by {
      ExplodeIsFlatten(ps, loads);
    }
    assert bl[k] == b && n == |b| && start == TotalLength(bl[..k]);
    SliceOfBlock(all, bl, k, b, start, n);
  }

  lemma SliceOfBlock<T>(all: seq<T>, blocks: seq<seq<T>>, k: nat, b: seq<T>, start: nat, n: nat)
    requires all == Flatten(blocks) && k < |blocks| && blocks[k] == b && n == |b|
    requires start == TotalLength(blocks[..k])
    ensures start + n <= |all| && all[start .. start + n] == b
  {
    FlattenBlock(blocks, k);
  }

  /** The exploded table has one row per element of every posting's parsed
      list (one for an empty list). */
  lemma ExplodeLength(ps: seq<Posting>, loads: Loads)
    ensures |ExplodeCategories(ps, loads)| == Sum(ps, (p: Posting) => FanOut(p, loads))
  {
    ExplodeIsFlatten(ps, loads);
    FlattenLength(Blocks(ps, loads));
    BlocksLength(ps, loads);
  }

  lemma {:induction false} BlocksLength(ps: seq<Posting>, loads: Loads)
    ensures TotalLength(Blocks(ps, loads)) == Sum(ps, (p: Posting) => FanOut(p, loads))
  {
    if |ps| > 0 {
      BlocksTail(ps, loads);
      BlocksLength(ps[1..], loads);
    }
  }

  /** A posting's vacancies counted once per row it becomes. */
  function WeightedVacancies(ps: seq<Posting>, loads: Loads): int {
    if |ps| == 0 then 0 else ps[0].vacancies * FanOut(ps[0], loads) + WeightedVacancies(ps[1..], loads)
  }

  lemma {:induction false} SumOverOnePosting(p: Posting, rows: seq<CatRow>)
    requires forall i :: 0 <= i < |rows| ==> rows[i].p == p
    ensures Sum(rows, (r: CatRow) => r.p.vacancies) == p.vacancies * |rows|
  {
    if |rows| > 0 {
      SumOverOnePosting(p, rows[1..]);
    }
  }

  /** The double count: the exploded table's vacancy total is each posting's
      vacancies times the number of sectors it was exploded into. */
  lemma {:induction false} ExplodedVacancyTotal(ps: seq<Posting>, loads: Loads)
    ensures Sum(ExplodeCategories(ps, loads), (r: CatRow) => r.p.vacancies) == WeightedVacancies(ps, loads)
  {
    if |ps| > 0 {
      var head := RowsOf(ps[0], loads);
      SumAppend(head, ExplodeCategories(ps[1..], loads), (r: CatRow) => r.p.vacancies);
      SumOverOnePosting(ps[0], head);
      ExplodedVacancyTotal(ps[1..], loads);
    }
  }

  /** Postings that each name exactly one sector keep the vacancy total. */
  lemma SingleSectorKeepsTotal(ps: seq<Posting>, loads: Loads)
    requires forall i :: 0 <= i < |ps| ==> FanOut(ps[i], loads) == 1
    ensures Sum(ExplodeCategories(ps, loads), (r: CatRow) => r.p.vacancies) == Sum(ps, (p: Posting) => p.vacancies)
  {
    ExplodedVacancyTotal(ps, loads);
    SingleSectorWeights(ps, loads);
  }

  lemma {:induction false} SingleSectorWeights(ps: seq<Posting>, loads: Loads)
    requires forall i :: 0 <= i < |ps| ==> FanOut(ps[i], loads) == 1
    ensures WeightedVacancies(ps, loads) == Sum(ps, (p: Posting) => p.vacancies)
  {
    if |ps| > 0 {
      SingleSectorWeights(ps[1..], loads);
    }
  }
}

=== FILE: extract_skills.dfy ===
/** The skills extraction script (extract_skills.py:29-82): fan each posting's
    skill row out over its parsed categories, drop rows whose category is
    missing or the empty string, and keep the columns job_id, category,
    posting_date, skill in that order. */
module ExtractSkills {
  import opened Values
  import opened Seqs
  import opened Categories

  /** A row of the source file: the four columns the script reads. */
  datatype SourceRow = SourceRow(jobId: Scalar, categories: Cell, postingDate: Scalar, skill: Scalar)

  /** A row of the output file. */
  datatype SkillRow = SkillRow(jobId: Scalar, category: string, postingDate: Scalar, skill: Scalar)

  /** The output's columns, in order. */
  const OutputColumns: seq<string> := ["job_id", "category", "posting_date", "skill"]

  /** `notna() & (category != '')`: a missing category and the empty string
      go; the "nan" text an empty list becomes stays. */
  predicate KeepCategory(c: Category) {
    CategoryText(c).Some? && CategoryText(c).value != ""
  }

  /** The output row of one source row and one category it keeps. */
  function OutRow(src: SourceRow, c: Category): SkillRow
    requires KeepCategory(c)
  {
    SkillRow(src.jobId, CategoryText(c).value, src.postingDate, src.skill)
  }

  /** The output rows of one source row over the categories `cs`, in order:
      one per kept category, in the categories' order. */
  function KeptRows(src: SourceRow, cs: seq<Category>): (r: seq<SkillRow>)
    ensures |r| == |Filter(cs, KeepCategory)| <= |cs|
    ensures forall i :: 0 <= i < |r| ==>
              KeepCategory(Filter(cs, KeepCategory)[i]) && r[i] == OutRow(src, Filter(cs, KeepCategory)[i])
    ensures forall row :: row in r <==> exists c :: c in cs && KeepCategory(c) && row == OutRow(src, c)
  {
    if |cs| == 0 then []
    else
      var rest, kept := KeptRows(src, cs[1..]), Filter(cs[1..], KeepCategory);
      assert forall c :: c in cs <==> c == cs[0] || c in cs[1..];
      if KeepCategory(cs[0]) then
        assert Filter(cs, KeepCategory) == [cs[0]] + kept;
        [OutRow(src, cs[0])] + rest
      else
        assert Filter(cs, KeepCategory) == kept;
        rest
  }

  /** The output rows one source row becomes. */
  function RowsOfSource(src: SourceRow, loads: Loads): seq<SkillRow> {
    KeptRows(src, CategoriesOf(src.categories, loads))
  }

  /** The explode / extract / filter / reorder pipeline: every output row
      is a source row's job_id, posting_date and skill with one category of
      that row that is neither missing nor empty, and every such combination
      is in the output. */
  function ExtractSkills(srcs: seq<SourceRow>, loads: Loads): (r: seq<SkillRow>)
    ensures forall row :: row in r ==> row.category != ""
    ensures forall row :: row in r <==>
              exists src, c :: src in srcs && c in CategoriesOf(src.categories, loads)
                               && KeepCategory(c) && row == OutRow(src, c)
  {
    if |srcs| == 0 then []
    else
      var head := RowsOfSource(srcs[0], loads);
      var tail := ExtractSkills(srcs[1..], loads);
      assert forall src :: src in srcs <==> src == srcs[0] || src in srcs[1..];
      head + tail
  }

  /** The output rows of each source row, in source order. */
  function SourceBlocks(srcs: seq<SourceRow>, loads: Loads): seq<seq<SkillRow>> {
    Apply(srcs, (src: SourceRow) => RowsOfSource(src, loads))
  }

  /** The output is the source rows' output rows laid end to end, so the
      rows of one source row stay together and in source order. */
  lemma {:induction false} ExtractIsFlatten(srcs: seq<SourceRow>, loads: Loads)
    ensures ExtractSkills(srcs, loads) == Flatten(SourceBlocks(srcs, loads))
  {
    if |srcs| > 0 {
      ExtractIsFlatten(srcs[1..], loads);
      ApplyTail(srcs, (src: SourceRow) => RowsOfSource(src, loads));
    }
  }

  /** The output has one row per source row and kept category. */
  lemma {:induction false} ExtractLength(srcs: seq<SourceRow>, loads: Loads)
    ensures |ExtractSkills(srcs, loads)|
            == Sum(srcs, (src: SourceRow) => |Filter(CategoriesOf(src.categories, loads), KeepCategory)|)
  {
    if |srcs| > 0 {
      ExtractLength(srcs[1..], loads);
    }
  }

  /** A source row whose categories do not parse still yields one row, with
      the category "nan". */
  lemma UnparsableKeepsNan(src: SourceRow, loads: Loads)
    requires src.categories.OtherCell? || loads(SwapQuotes(src.categories.s)).None?
    ensures RowsOfSource(src, loads) == [SkillRow(src.jobId, "nan", src.postingDate, src.skill)]
  {
    UnparsableGivesSingleNan(src.categories, loads);
  }

  /** A dict whose `category` is null contributes no row. */
  lemma NullCategoryDropped(src: SourceRow, loads: Loads, entries: seq<(string, Json)>)
    requires src.categories.TextCell?
    requires loads(SwapQuotes(src.categories.s)) == Some(JArray([JObject(entries)]))
    requires Lookup(entries, "category") == Some(JNull)
    ensures RowsOfSource(src, loads) == []
  {
    assert CategoriesOf(src.categories, loads) == [Missing];
  }

  /** How the script ends. */
  datatype Run = Failed(code: int) | Wrote(code: int, columns: seq<string>, rows: seq<SkillRow>)

  /** `main`: a missing source file ends with status 1 and writes nothing;
      otherwise the extracted rows are written and the status is 0. */
  function RunScript(source: Option<seq<SourceRow>>, loads: Loads): (run: Run)
    ensures source.None? <==> run == Failed(1)
    ensures source.Some? ==> run.Wrote? && run.code == 0 && run.columns == OutputColumns
    ensures source.Some? ==> forall row :: row in run.rows ==> row.category != ""
    ensures source.Some? ==> run.rows == ExtractSkills(source.value, loads)
  {
    match source
    case None => Failed(1)
    case Some(srcs) => Wrote(0, OutputColumns, ExtractSkills(srcs, loads))
  }
}

=== FILE: groups.dfy ===
/** pandas `groupby` on one key column: the sorted distinct keys, the rows of
    each group, and per-group sums. Rows whose key is missing belong to no
    group, as `groupby` drops null keys. */
module Groups {
  import opened Values
  import opened Seqs
  import opened Order

  /** The rows whose key is `k`, in their original order. */
  function Group<T(!new), K(==)>(xs: seq<T>, key: T -> Option<K>, k: K): (r: seq<T>)
    ensures forall x :: x in r <==> x in xs && key(x) == Some(k)
    ensures Subseq(r, xs)
  {
    Filter(xs, (x: T) => key(x) == Some(k))
  }

  /** A group holds every occurrence of each of its rows. */
  lemma GroupMultiset<T(!new), K>(xs: seq<T>, key: T -> Option<K>, k: K, x: T)
    ensures multiset(Group(xs, key, k))[x] == if key(x) == Some(k) then multiset(xs)[x] else 0
  {
    FilterMultiset(xs, (x: T) => key(x) == Some(k), x);
  }

  /** The keys of the rows that have one, in row order and with repeats. */
  function KeyList<T(!new), K(==,!new)>(xs: seq<T>, key: T -> Option<K>): (r: seq<K>)
    ensures forall k :: k in r <==> exists x :: x in xs && key(x) == Some(k)
  {
    if |xs| == 0 then []
    else
      var rest := KeyList(xs[1..], key);
      assert forall x :: x in xs <==> x == xs[0] || x in xs[1..];
      if key(xs[0]).Some? then
        assert key(xs[0]) == Some(key(xs[0]).value);
        [key(xs[0]).value] + rest
      else rest
  }

  /** The group keys in ascending order, each once (`groupby(...).groups`,
      which pandas sorts). */
  function GroupKeys<T(!new), K(==,!new)>(xs: seq<T>, key: T -> Option<K>, lt: (K, K) -> bool): (r: seq<K>)
    requires StrictTotalOrder(lt)
    ensures StrictlySorted(r, lt)
    ensures NoDuplicates(r)
    ensures forall k :: k in r <==> exists x :: x in xs && key(x) == Some(k)
  {
    var r := SortedKeys(KeyList(xs, key), lt);
    StrictlySortedDistinct(r, lt);
    r
  }

  /** Every listed key has a non-empty group. */
  lemma GroupNonEmpty<T(!new), K>(xs: seq<T>, key: T -> Option<K>, k: K, x: T)
    requires x in xs && key(x) == Some(k)
    ensures |Group(xs, key, k)| > 0
  {
    assert x in Group(xs, key, k);
  }

  /** Every key present among the rows has a non-empty group. */
  lemma KeysHaveGroups<T(!new), K>(xs: seq<T>, key: T -> Option<K>, ks: seq<K>)
    requires forall k :: k in ks ==> exists x :: x in xs && key(x) == Some(k)
    ensures forall i :: 0 <= i < |ks| ==> |Group(xs, key, ks[i])| > 0
  {
    forall i | 0 <= i < |ks| ensures |Group(xs, key, ks[i])| > 0 {
      assert ks[i] in ks;
      var x :| x in xs && key(x) == Some(ks[i]);
      GroupNonEmpty(xs, key, ks[i], x);
    }
  }

  /** A group's column sum (`groupby(key)[col].sum()` at one key). */
  function GroupTotal<T(!new), K(==)>(xs: seq<T>, key: T -> Option<K>, f: T -> int, k: K): int {
    Sum(Group(xs, key, k), f)
  }

  /** The group sums of the keys `ks` added up. */
  function KeysTotal<T(!new), K(==)>(xs: seq<T>, key: T -> Option<K>, f: T -> int, ks: seq<K>): int {
    if |ks| == 0 then 0 else GroupTotal(xs, key, f, ks[0]) + KeysTotal(xs, key, f, ks[1..])
  }

  /** The column sum over the rows that have a key. */
  function KeyedSum<T, K>(xs: seq<T>, key: T -> Option<K>, f: T -> int): int {
    if |xs| == 0 then 0 else (if key(xs[0]).Some? then f(xs[0]) else 0) + KeyedSum(xs[1..], key, f)
  }

  /** Every row has a key: the keyed sum is the plain sum. */
  lemma {:induction false} KeyedSumAll<T, K>(xs: seq<T>, key: T -> Option<K>, f: T -> int)
    requires forall i :: 0 <= i < |xs| ==> key(xs[i]).Some?
    ensures KeyedSum(xs, key, f) == Sum(xs, f)
  {
    if |xs| > 0 {
      KeyedSumAll(xs[1..], key, f);
    }
  }

  /** What one row adds to the group sums of the keys `ks`. */
  function Hit<T, K(==)>(x: T, key: T -> Option<K>, f: T -> int, ks: seq<K>): int {
    if |ks| == 0 then 0 else (if key(x) == Some(ks[0]) then f(x) else 0) + Hit(x, key, f, ks[1..])
  }

  /** Over distinct keys a row is counted once if its key is among them, else never. */
  lemma {:induction false} HitOnce<T, K>(x: T, key: T -> Option<K>, f: T -> int, ks: seq<K>)
    requires NoDuplicates(ks)
    ensures Hit(x, key, f, ks) == if key(x).Some? && key(x).value in ks then f(x) else 0
  {
    if |ks| > 0 {
      HitOnce(x, key, f, ks[1..]);
      assert ks[0] !in ks[1..];
      assert forall k :: k in ks <==> k == ks[0] || k in ks[1..];
    }
  }

  lemma GroupTotalUnfold<T(!new), K>(xs: seq<T>, key: T -> Option<K>, f: T -> int, k: K)
    requires |xs| > 0
    ensures GroupTotal(xs, key, f, k)
            == (if key(xs[0]) == Some(k) then f(xs[0]) else 0) + GroupTotal(xs[1..], key, f, k)
  {
    var g := Group(xs[1..], key, k);
    assert ([xs[0]] + g)[1..] == g;
  }

  /** Peeling the first row off every group at once. */
  lemma {:induction false} KeysTotalUnfold<T(!new), K>(xs: seq<T>, key: T -> Option<K>, f: T -> int, ks: seq<K>)
    requires |xs| > 0
    ensures KeysTotal(xs, key, f, ks) == Hit(xs[0], key, f, ks) + KeysTotal(xs[1..], key, f, ks)
  {
    if |ks| > 0 {
      GroupTotalUnfold(xs, key, f, ks[0]);
      KeysTotalUnfold(xs, key, f, ks[1..]);
    }
  }

  /** The groups partition the keyed rows: over a duplicate-free list of
      keys that covers every key present, the group sums add up to the sum
      over all rows that have a key. */
  lemma {:induction false} GroupTotalsPartition<T(!new), K>(xs: seq<T>, key: T -> Option<K>, f: T -> int, ks: seq<K>)
    requires NoDuplicates(ks)
    requires forall i :: 0 <= i < |xs| && key(xs[i]).Some? ==> key(xs[i]).value in ks
    ensures KeysTotal(xs, key, f, ks) == KeyedSum(xs, key, f)
  {
    if |xs| == 0 {
      KeysTotalEmpty(xs, key, f, ks);
    } else {
      KeysTotalUnfold(xs, key, f, ks);
      HitOnce(xs[0], key, f, ks);
      assert forall i :: 0 <= i < |xs[1..]| ==> xs[1..][i] == xs[i + 1];
      GroupTotalsPartition(xs[1..], key, f, ks);
    }
  }

  lemma {:induction false} KeysTotalEmpty<T(!new), K>(xs: seq<T>, key: T -> Option<K>, f: T -> int, ks: seq<K>)
    requires |xs| == 0
    ensures KeysTotal(xs, key, f, ks) == 0
  {
    if |ks| > 0 {
      KeysTotalEmpty(xs, key, f, ks[1..]);
    }
  }

  /** The group keys' sums add up to the sum over all keyed rows. */
  lemma GroupKeysPartition<T(!new), K(!new)>(xs: seq<T>, key: T -> Option<K>, f: T -> int, lt: (K, K) -> bool)
    requires StrictTotalOrder(lt)
    ensures KeysTotal(xs, key, f, GroupKeys(xs, key, lt)) == KeyedSum(xs, key, f)
  {
    var ks := GroupKeys(xs, key, lt);
    forall i | 0 <= i < |xs| && key(xs[i]).Some? ensures key(xs[i]).value in ks {
      assert xs[i] in xs && key(xs[i]) == Some(key(xs[i]).value);
    }
    GroupTotalsPartition(xs, key, f, ks);
  }

  /** The second component of a (key, value) pair. */
  function Snd<K>(p: (K, int)): int {
    p.1
  }

  /** Each key of `ks` paired with its group sum (`groupby(key)[col].sum()`
      restricted to `ks`, in the order of `ks`). */
  function Totals<T(!new), K(==)>(xs: seq<T>, key: T -> Option<K>, f: T -> int, ks: seq<K>): (t: seq<(K, int)>)
    ensures |t| == |ks|
    ensures forall i :: 0 <= i < |t| ==> t[i] == (ks[i], GroupTotal(xs, key, f, ks[i]))
  {
    seq(|ks|, i requires 0 <= i < |ks| => (ks[i], GroupTotal(xs, key, f, ks[i])))
  }

  /** The listed totals add up to the keys' group sums. */
  lemma {:induction false} SumTotals<T(!new), K>(xs: seq<T>, key: T -> Option<K>, f: T -> int, ks: seq<K>)
    ensures Sum(Totals(xs, key, f, ks), Snd) == KeysTotal(xs, key, f, ks)
  {
    if |ks| > 0 {
      assert Totals(xs, key, f, ks)[1..] == Totals(xs, key, f, ks[1..]);
      SumTotals(xs, key, f, ks[1..]);
    }
  }

  /** The first components, in order (the `.index` of a keyed result). */
  function Firsts<K>(t: seq<(K, int)>): (r: seq<K>)
    ensures |r| == |t|
    ensures forall i :: 0 <= i < |r| ==> r[i] == t[i].0
  {
    seq(|t|, i requires 0 <= i < |t| => t[i].0)
  }

  /** A key no row has names an empty group. */
  lemma {:induction false} GroupEmpty<T(!new), K>(xs: seq<T>, key: T -> Option<K>, k: K)
    requires forall x :: x in xs ==> key(x) != Some(k)
    ensures Group(xs, key, k) == []
  {
    if |xs| > 0 {
      assert forall x :: x in xs[1..] ==> x in xs;
      GroupEmpty(xs[1..], key, k);
      assert xs[0] in xs;
    }
  }
}

=== FILE: momentum.dfy ===
/** The sectoral momentum views (app.py:247-290): the monthly demand-velocity
    series of the ten sectors with the most vacancies, and the bulk-hiring
    heatmap of the twelve sectors with the most vacancies. Both measure
    applications per vacancy, but guard zero vacancies differently. */
module Momentum {
  import opened Values
  import opened Seqs
  import opened Order
  import opened Groups
  import opened Cleaning
  import opened Explode
  import opened Aggregates

  /** Chronological order of posting months. */
  predicate MonthLt(a: Month, b: Month) {
    a.year < b.year || (a.year == b.year && a.month < b.month)
  }

  lemma MonthLtIsStrictTotalOrder()
    ensures StrictTotalOrder(MonthLt)
  {
    forall a: Month, b: Month ensures a == b || MonthLt(a, b) || MonthLt(b, a) {
      if a.year == b.year && a.month == b.month {
        assert a == b;
      }
    }
  }

  /** The (month, sector) order of a `groupby(['month_year', 'category'])`. */
  lemma MonthSectorOrder()
    ensures StrictTotalOrder(Lex(MonthLt, StrLt))
  {
    MonthLtIsStrictTotalOrder();
    StrLtIsStrictTotalOrder();
    LexIsStrictTotalOrder(MonthLt, StrLt);
  }

  /** Applications per vacancy, 0 when there are no vacancies (the demand
      velocity's and the education metrics' guard). */
  function BulkFactor(applications: int, vacancies: int): (r: real)
    ensures vacancies > 0 ==> r * vacancies as real == applications as real
    ensures vacancies <= 0 ==> r == 0.0
    ensures applications >= 0 && vacancies > 0 ==> 0.0 <= r <= applications as real
  {
    if vacancies > 0 then applications as real / vacancies as real else 0.0
  }

  /** The heatmap's ratio: vacancies of 0 are replaced by 1, so a cell with
      applications and no vacancies shows its applications. */
  function HeatCell(applications: int, vacancies: int): (r: real)
    ensures vacancies == 0 ==> r == applications as real
    ensures vacancies != 0 ==> r * vacancies as real == applications as real
  {
    applications as real / (if vacancies == 0 then 1 else vacancies) as real
  }

  /** The two ratios agree wherever there are vacancies, and disagree exactly
      on cells with no vacancies but some applications. */
  lemma HeatCellVersusBulkFactor(applications: int, vacancies: int)
    requires vacancies >= 0
    ensures vacancies > 0 ==> HeatCell(applications, vacancies) == BulkFactor(applications, vacancies)
    ensures HeatCell(applications, vacancies) != BulkFactor(applications, vacancies)
            <==> vacancies == 0 && applications != 0
  {
    if vacancies > 0 {
      var h := HeatCell(applications, vacancies);
      var b := BulkFactor(applications, vacancies);
      assert h * vacancies as real == b * vacancies as real;
    }
  }

  /** The applications column. */
  function Applications(x: CatRow): int {
    x.p.applications
  }

  /** A row's (month, sector) key; None when its category or its posting
      month is missing (pandas leaves NaN and NaT keys out of a `groupby` and
      a `pivot_table`). */
  function MonthSector(x: CatRow): Option<(Month, string)> {
    if x.p.month.Some? && SectorOf(x).Some? then Some((x.p.month.value, SectorOf(x).value)) else None
  }

  /** A row's vacancies when it has a posting month, else nothing. */
  function DatedVacancies(x: CatRow): int {
    if x.p.month.Some? then x.p.vacancies else 0
  }

  /** The row belongs to one of the sectors `top`. */
  predicate InTop(x: CatRow, top: seq<string>) {
    SectorOf(x).Some? && SectorOf(x).value in top
  }

  /** The rows whose sector is one of `top` (`isin(top)`). */
  function RowsIn(rows: seq<CatRow>, top: seq<string>): (r: seq<CatRow>)
    ensures forall x :: x in r <==> x in rows && InTop(x, top)
    ensures forall i :: 0 <= i < |r| ==> InTop(r[i], top)
    ensures Subseq(r, rows)
    ensures forall x :: multiset(r)[x] == if InTop(x, top) then multiset(rows)[x] else 0
  {
    var p := (x: CatRow) => InTop(x, top);
    var r := Filter(rows, p);
    assert forall i :: 0 <= i < |r| ==> r[i] in r;
    forall x ensures multiset(r)[x] == if InTop(x, top) then multiset(rows)[x] else 0 {
      FilterMultiset(rows, p, x);
    }
    r
  }

  /** The rows of the `n` sectors with the most vacancies. */
  function TopRows(rows: seq<CatRow>, n: nat): (r: seq<CatRow>)
    ensures forall x :: x in r <==> x in rows && InTop(x, TopSectorNames(rows, n))
    ensures forall i :: 0 <= i < |r| ==> SectorOf(r[i]).Some? && SectorOf(r[i]).value != Others
    ensures Subseq(r, rows)
    ensures forall x :: multiset(r)[x] == if InTop(x, TopSectorNames(rows, n)) then multiset(rows)[x] else 0
  {
    var top := TopSectorNames(rows, n);
    assert Others !in top;
    RowsIn(rows, top)
  }

  /** One point of the demand-velocity chart. */
  datatype VelocityPoint = VelocityPoint(
    month: Month, sector: string, applications: int, vacancies: int, bulkFactor: real)

  function PointVacancies(p: VelocityPoint): int {
    p.vacancies
  }

  /** The point of one (month, sector) key over the rows `xs`. */
  function PointOf(xs: seq<CatRow>, k: (Month, string)): (p: VelocityPoint)
    ensures p.month == k.0 && p.sector == k.1
    ensures p.applications == GroupTotal(xs, MonthSector, Applications, k)
    ensures p.vacancies == GroupTotal(xs, MonthSector, MetricOf(NumVacancies), k)
    ensures p.vacancies > 0 ==> p.bulkFactor * p.vacancies as real == p.applications as real
    ensures p.vacancies <= 0 ==> p.bulkFactor == 0.0
  {
    var apps := GroupTotal(xs, MonthSector, Applications, k);
    var vac := GroupTotal(xs, MonthSector, MetricOf(NumVacancies), k);
    VelocityPoint(k.0, k.1, apps, vac, BulkFactor(apps, vac))
  }

  function Points(xs: seq<CatRow>, ks: seq<(Month, string)>): (r: seq<VelocityPoint>)
    ensures |r| == |ks|
    ensures forall i :: 0 <= i < |r| ==> r[i] == PointOf(xs, ks[i])
  {
    seq(|ks|, i requires 0 <= i < |ks| => PointOf(xs, ks[i]))
  }

  /** `get_demand_velocity`: one point per (month, sector) present among the
      ten sectors with the most vacancies, in (month, sector) order, carrying
      that month's applications and vacancies in that sector and their bulk
      factor. */
  function DemandVelocity(rows: seq<CatRow>): (r: seq<VelocityPoint>)
    ensures forall i, j :: 0 <= i < j < |r| ==>
              Lex(MonthLt, StrLt)((r[i].month, r[i].sector), (r[j].month, r[j].sector))
    ensures forall i :: 0 <= i < |r| ==>
              && r[i].sector in TopSectorNames(rows, 10)
              && (exists x :: x in rows && x.p.month == Some(r[i].month) && InSector(x, r[i].sector))
              && r[i].vacancies == GroupTotal(TopRows(rows, 10), MonthSector, MetricOf(NumVacancies), (r[i].month, r[i].sector))
              && r[i].applications == GroupTotal(TopRows(rows, 10), MonthSector, Applications, (r[i].month, r[i].sector))
              && r[i].bulkFactor == BulkFactor(r[i].applications, r[i].vacancies)
    ensures forall x :: x in rows && InTop(x, TopSectorNames(rows, 10)) && x.p.month.Some? ==>
              exists i :: 0 <= i < |r| && Some(r[i].month) == x.p.month && InSector(x, r[i].sector)
  {
    var xs := TopRows(rows, 10);
    MonthSectorOrder();
    var ks := GroupKeys(xs, MonthSector, Lex(MonthLt, StrLt));
    var r := Points(xs, ks);
    var top := TopSectorNames(rows, 10);
    PointsSound(rows, top, xs, ks, r);
    PointsComplete(rows, top, xs, ks, r);
    r
  }

  lemma PointsSound(rows: seq<CatRow>, top: seq<string>, xs: seq<CatRow>, ks: seq<(Month, string)>, r: seq<VelocityPoint>)
    requires forall x :: x in xs <==> x in rows && InTop(x, top)
    requires forall k :: k in ks ==> exists x :: x in xs && MonthSector(x) == Some(k)
    requires |r| == |ks| && forall i :: 0 <= i < |r| ==> r[i].month == ks[i].0 && r[i].sector == ks[i].1
    ensures forall i :: 0 <= i < |r| ==>
              && r[i].sector in top
              && (exists x :: x in rows && x.p.month == Some(r[i].month) && InSector(x, r[i].sector))
  {
    forall i | 0 <= i < |r|
      ensures r[i].sector in top
      ensures exists x :: x in rows && x.p.month == Some(r[i].month) && InSector(x, r[i].sector)
    {
      assert ks[i] in ks;
      var x :| x in xs && MonthSector(x) == Some(ks[i]);
      assert x in rows && x.p.month == Some(r[i].month) && InSector(x, r[i].sector);
    }
  }

  lemma PointsComplete(rows: seq<CatRow>, top: seq<string>, xs: seq<CatRow>, ks: seq<(Month, string)>, r: seq<VelocityPoint>)
    requires forall x :: x in xs <==> x in rows && InTop(x, top)
    requires forall k :: (exists x :: x in xs && MonthSector(x) == Some(k)) ==> k in ks
    requires |r| == |ks| && forall i :: 0 <= i < |r| ==> r[i].month == ks[i].0 && r[i].sector == ks[i].1
    ensures forall x :: x in rows && InTop(x, top) && x.p.month.Some? ==>
              exists i :: 0 <= i < |r| && Some(r[i].month) == x.p.month && InSector(x, r[i].sector)
  {
    forall x | x in rows && InTop(x, top) && x.p.month.Some?
      ensures exists i :: 0 <= i < |r| && Some(r[i].month) == x.p.month && InSector(x, r[i].sector)
    {
      assert x in xs;
      var k := (x.p.month.value, SectorOf(x).value);
      assert MonthSector(x) == Some(k);
      var i :| 0 <= i < |ks| && ks[i] == k;
      assert Some(r[i].month) == x.p.month && InSector(x, r[i].sector);
    }
  }

  lemma {:induction false} SumPoints(xs: seq<CatRow>, ks: seq<(Month, string)>)
    ensures Sum(Points(xs, ks), PointVacancies) == KeysTotal(xs, MonthSector, MetricOf(NumVacancies), ks)
  {
    if |ks| > 0 {
      assert Points(xs, ks)[1..] == Points(xs, ks[1..]);
      SumPoints(xs, ks[1..]);
    }
  }

  /** Splitting by month loses and duplicates nothing: the points' vacancies
      add up to the vacancies of the top sectors' rows that have a posting
      month. */
  lemma VelocityAddsUp(rows: seq<CatRow>)
    ensures Sum(DemandVelocity(rows), PointVacancies) == Sum(TopRows(rows, 10), DatedVacancies)
  {
    var xs := TopRows(rows, 10);
    MonthSectorOrder();
    var ks := GroupKeys(xs, MonthSector, Lex(MonthLt, StrLt));
    SumPoints(xs, ks);
    GroupKeysPartition(xs, MonthSector, MetricOf(NumVacancies), Lex(MonthLt, StrLt));
    KeyedSumDated(xs);
  }

  /** Over rows that all have a sector, the rows with a (month, sector) key
      are exactly the dated ones. */
  lemma {:induction false} KeyedSumDated(xs: seq<CatRow>)
    requires forall i :: 0 <= i < |xs| ==> SectorOf(xs[i]).Some?
    ensures KeyedSum(xs, MonthSector, MetricOf(NumVacancies)) == Sum(xs, DatedVacancies)
  {
    if |xs| > 0 {
      KeyedSumDated(xs[1..]);
    }
  }

  /** A row's sector when it also has a posting month: the rows a
      (sector, month) pivot keeps. */
  function DatedSector(x: CatRow): Option<string> {
    if x.p.month.Some? then SectorOf(x) else None
  }

  /** A row's month; None for a NaT posting date. */
  function MonthOf(x: CatRow): Option<Month> {
    x.p.month
  }

  /** The bulk-hiring heatmap: sectors down, months across, one ratio per cell. */
  datatype Heatmap = Heatmap(sectors: seq<string>, months: seq<Month>, cells: seq<seq<real>>)

  /** The heatmap ratio of one (month, sector) key over the rows `xs`. */
  function CellAt(xs: seq<CatRow>, k: (Month, string)): real {
    HeatCell(GroupTotal(xs, MonthSector, Applications, k), GroupTotal(xs, MonthSector, MetricOf(NumVacancies), k))
  }

  /** The pivot of `CellAt`: one row per sector, one column per month. */
  function HeatCells(xs: seq<CatRow>, sectors: seq<string>, months: seq<Month>): (c: seq<seq<real>>)
    ensures |c| == |sectors|
    ensures forall i :: 0 <= i < |c| ==> |c[i]| == |months|
    ensures forall i, j :: 0 <= i < |sectors| && 0 <= j < |months| ==> c[i][j] == CellAt(xs, (months[j], sectors[i]))
  {
    seq(|sectors|, i requires 0 <= i < |sectors| =>
      seq(|months|, j requires 0 <= j < |months| => CellAt(xs, (months[j], sectors[i]))))
  }

  /** `get_bulk_hiring_data`: of the twelve sectors with the most vacancies,
      those with a dated posting, in name order; the months they post in,
      chronologically; and for each pair the heatmap ratio of its summed
      applications and vacancies. */
  function BulkHiringMap(rows: seq<CatRow>): (h: Heatmap)
    ensures StrictlySorted(h.sectors, StrLt) && StrictlySorted(h.months, MonthLt)
    ensures forall s :: s in h.sectors <==>
              s in TopSectorNames(rows, 12) && exists x :: x in rows && InSector(x, s) && x.p.month.Some?
    ensures forall mo :: mo in h.months <==> exists x :: x in TopRows(rows, 12) && x.p.month == Some(mo)
    ensures |h.cells| == |h.sectors|
    ensures forall i :: 0 <= i < |h.cells| ==> |h.cells[i]| == |h.months|
    ensures forall i, j :: 0 <= i < |h.sectors| && 0 <= j < |h.months| ==>
              h.cells[i][j] == CellAt(TopRows(rows, 12), (h.months[j], h.sectors[i]))
  {
    var xs := TopRows(rows, 12);
    StrLtIsStrictTotalOrder();
    MonthLtIsStrictTotalOrder();
    var sectors := GroupKeys(xs, DatedSector, StrLt);
    var months := GroupKeys(xs, MonthOf, MonthLt);
    HeatSectors(rows, xs, sectors);
    Heatmap(sectors, months, HeatCells(xs, sectors, months))
  }

  /** A (sector, month) pair with no postings is 0 in the heatmap (pandas
      fills the missing pivot cell with 0, and 0 / 1 is 0). */
  lemma MissingPairIsZero(rows: seq<CatRow>, i: nat, j: nat)
    requires i < |BulkHiringMap(rows).sectors| && j < |BulkHiringMap(rows).months|
    requires forall x :: x in rows ==>
               !(x.p.month == Some(BulkHiringMap(rows).months[j]) && InSector(x, BulkHiringMap(rows).sectors[i]))
    ensures BulkHiringMap(rows).cells[i][j] == 0.0
  {
    var h := BulkHiringMap(rows);
    EmptyCell(TopRows(rows, 12), rows, (h.months[j], h.sectors[i]));
  }

  lemma HeatSectors(rows: seq<CatRow>, xs: seq<CatRow>, sectors: seq<string>)
    requires xs == TopRows(rows, 12)
    requires forall s :: s in sectors <==> exists x :: x in xs && DatedSector(x) == Some(s)
    ensures forall s :: s in sectors <==>
              s in TopSectorNames(rows, 12) && exists x :: x in rows && InSector(x, s) && x.p.month.Some?
  {
    forall s | s in TopSectorNames(rows, 12) && exists x :: x in rows && InSector(x, s) && x.p.month.Some?
      ensures s in sectors
    {
      var x :| x in rows && InSector(x, s) && x.p.month.Some?;
      assert x in xs && DatedSector(x) == Some(s);
    }
  }

  /** A (month, sector) pair with no rows sums to nothing and shows 0. */
  lemma EmptyCell(xs: seq<CatRow>, rows: seq<CatRow>, k: (Month, string))
    requires forall x :: x in xs ==> x in rows
    requires forall x :: x in rows ==> !(x.p.month == Some(k.0) && InSector(x, k.1))
    ensures CellAt(xs, k) == 0.0
  {
    forall x | x in xs ensures MonthSector(x) != Some(k) {
      assert !(x.p.month == Some(k.0) && InSector(x, k.1));
    }
    GroupEmpty(xs, MonthSector, k);
  }
}

=== FILE: monthkey.dfy ===
/** The `YYYY-MM` month key of the skills table (the text of a monthly
    period): zero-padded decimal year and month joined by a dash. Sorting the
    keys as text sorts them chronologically, and the key can be read back. */
module MonthKeys {
  import opened Values
  import opened Order

  function Pow10(w: nat): nat {
    if w == 0 then 1 else 10 * Pow10(w - 1)
  }

  /** The character of a decimal digit. */
  function Digit(d: int): char
    requires 0 <= d < 10
  {
    ('0' as int + d) as char
  }

  predicate IsDigit(c: char) {
    '0' <= c <= '9'
  }

  /** `n` in decimal, zero-padded on the left to `w` digits (its last `w`
      digits when it has more). */
  function Pad(n: nat, w: nat): (s: string)
    ensures |s| == w
    ensures forall i :: 0 <= i < |s| ==> IsDigit(s[i])
  {
    if w == 0 then "" else Pad(n / 10, w - 1) + [Digit(n % 10)]
  }

  /** The number a digit string spells. */
  function ParseDigits(s: string): int {
    if |s| == 0 then 0 else ParseDigits(s[..|s| - 1]) * 10 + (s[|s| - 1] as int - '0' as int)
  }

  /** Reading back a padded number gives the number, when it fits. */
  lemma {:induction false} ParsePad(n: nat, w: nat)
    requires n < Pow10(w)
    ensures ParseDigits(Pad(n, w)) == n
  {
    if w > 0 {
      var s := Pad(n, w);
      assert s[..|s| - 1] == Pad(n / 10, w - 1);
      ParsePad(n / 10, w - 1);
    }
  }

  /** Comparing two texts that start with prefixes of equal length: the
      prefixes decide unless they are equal. */
  lemma {:induction false} StrLtConcat(a: string, s: string, b: string, t: string)
    requires |a| == |b|
    ensures StrLt(a + s, b + t) <==> StrLt(a, b) || (a == b && StrLt(s, t))
  {
    if |a| > 0 {
      assert (a + s)[0] == a[0] && (b + t)[0] == b[0];
      assert (a + s)[1..] == a[1..] + s;
      assert (b + t)[1..] == b[1..] + t;
      StrLtConcat(a[1..], s, b[1..], t);
      if a[0] == b[0] && a[1..] == b[1..] {
        assert a == [a[0]] + a[1..] && b == [b[0]] + b[1..];
      }
      if a == b {
        assert a[1..] == b[1..];
      }
    } else {
      assert a + s == s && b + t == t;
    }
  }

  /** Two texts that differ only in their last character. */
  lemma StrLtLast(a: string, x: char, b: string, y: char)
    requires |a| == |b|
    ensures StrLt(a + [x], b + [y]) <==> StrLt(a, b) || (a == b && x < y)
  {
    StrLtConcat(a, [x], b, [y]);
  }

  /** Equal widths: different numbers pad to different texts. */
  lemma {:induction false} PadInjective(n1: nat, n2: nat, w: nat)
    requires n1 < Pow10(w) && n2 < Pow10(w)
    ensures Pad(n1, w) == Pad(n2, w) <==> n1 == n2
  {
    if Pad(n1, w) == Pad(n2, w) {
      ParsePad(n1, w);
      ParsePad(n2, w);
    }
  }

  /** Padded to the same width, text order is numeric order. */
  lemma {:induction false} PadOrder(n1: nat, n2: nat, w: nat)
    requires n1 < Pow10(w) && n2 < Pow10(w)
    ensures StrLt(Pad(n1, w), Pad(n2, w)) <==> n1 < n2
  {
    if w > 0 {
      PadOrder(n1 / 10, n2 / 10, w - 1);
      PadInjective(n1 / 10, n2 / 10, w - 1);
      StrLtLast(Pad(n1 / 10, w - 1), Digit(n1 % 10), Pad(n2 / 10, w - 1), Digit(n2 % 10));
    }
  }

  /** A year and month that have a `YYYY-MM` key. */
  predicate ValidMonth(year: int, month: int) {
    0 <= year <= 9999 && 1 <= month <= 12
  }

  /** `to_period('M').astype(str)`. */
  function MonthKey(year: int, month: int): (s: string)
    requires ValidMonth(year, month)
    ensures |s| == 7 && s[4] == '-'
  {
    Pad(year, 4) + "-" + Pad(month, 2)
  }

  /** Reads a `YYYY-MM` key back; None for any other text. */
  function ParseMonthKey(s: string): Option<(int, int)> {
    if |s| == 7 && s[4] == '-' && (forall i :: 0 <= i < 7 && i != 4 ==> IsDigit(s[i]))
    then Some((ParseDigits(s[..4]), ParseDigits(s[5..])))
    else None
  }

  /** The key reads back as the year and month it was made from. */
  lemma MonthKeyRoundTrip(year: int, month: int)
    requires ValidMonth(year, month)
    ensures ParseMonthKey(MonthKey(year, month)) == Some((year, month))
  {
    var s := MonthKey(year, month);
    assert s[..4] == Pad(year, 4);
    assert s[5..] == Pad(month, 2);
    assert forall i :: 0 <= i < 4 ==> s[i] == Pad(year, 4)[i];
    assert forall i :: 5 <= i < 7 ==> s[i] == Pad(month, 2)[i - 5];
    ParsePad(year, 4);
    ParsePad(month, 2);
  }

  /** Different months have different keys. */
  lemma MonthKeyInjective(y1: int, m1: int, y2: int, m2: int)
    requires ValidMonth(y1, m1) && ValidMonth(y2, m2)
    ensures MonthKey(y1, m1) == MonthKey(y2, m2) <==> y1 == y2 && m1 == m2
  {
    MonthKeyRoundTrip(y1, m1);
    MonthKeyRoundTrip(y2, m2);
  }

  /** Sorting keys as text sorts the months chronologically. */
  lemma MonthKeyOrder(y1: int, m1: int, y2: int, m2: int)
    requires ValidMonth(y1, m1) && ValidMonth(y2, m2)
    ensures StrLt(MonthKey(y1, m1), MonthKey(y2, m2)) <==> y1 < y2 || (y1 == y2 && m1 < m2)
  {
    var p1, p2 := Pad(y1, 4), Pad(y2, 4);
    var q1, q2 := Pad(m1, 2), Pad(m2, 2);
    assert MonthKey(y1, m1) == p1 + ("-" + q1);
    assert MonthKey(y2, m2) == p2 + ("-" + q2);
    StrLtConcat(p1, "-" + q1, p2, "-" + q2);
    StrLtConcat("-", q1, "-", q2);
    StrLtIrreflexive("-");
    PadOrder(y1, y2, 4);
    PadInjective(y1, y2, 4);
    PadOrder(m1, m2, 2);
  }
}

=== FILE: opportunity.dfy ===
/** The education-gap tab (app.py:304-318, 617-655): per-sector and per-title
    metrics (vacancies, applications, mean experience, post count, the
    opportunity score and the competition index), the fifty titles with the
    most vacancies, and their quadrant against the two medians. */
module Opportunity {
  import opened Values
  import opened Seqs
  import opened Order
  import opened Groups
  import opened Cleaning
  import opened Categories
  import opened Explode
  import opened Aggregates
  import opened Momentum

  /** Every row's minimum experience lies in [0, 15], as the load step leaves it. */
  predicate Bounded(xs: seq<CatRow>) {
    forall i :: 0 <= i < |xs| ==> 0.0 <= xs[i].p.minExp <= 15.0
  }

  /** The exploded table of cleaned postings is bounded: the load step clips
      every minimum experience and the explode copies each posting as is. */
  lemma CleanedRowsBounded(raws: seq<RawPosting>, q1: real, q3: real, loads: Loads)
    ensures Bounded(ExplodeCategories(CleanAll(raws, q1, q3), loads))
  {
    var ps := CleanAll(raws, q1, q3);
    var xs := ExplodeCategories(ps, loads);
    forall i | 0 <= i < |xs| ensures 0.0 <= xs[i].p.minExp <= 15.0 {
      assert xs[i] in xs;
      var k :| 0 <= k < |ps| && ps[k] == xs[i].p;
      assert Cleaned(ps[k]);
    }
  }

  function MinExp(x: CatRow): real {
    x.p.minExp
  }

  /** One row of an aggregated metrics table. */
  datatype KeyMetrics = KeyMetrics(
    key: string,
    vacancies: int,
    applications: int,
    meanMinExp: real,
    postCount: nat,
    oppScore: real,
    compIndex: real)

  /** The mean minimum experience of a non-empty group of bounded rows. */
  function MeanMinExp(g: seq<CatRow>): (mean: real)
    requires |g| > 0 && forall x :: x in g ==> 0.0 <= MinExp(x) <= 15.0
    ensures mean * |g| as real == SumReal(g, MinExp)
    ensures 0.0 <= mean <= 15.0
  {
    SumRealBounds(g, MinExp, 0.0, 15.0);
    var n := |g| as real;
    var mean := SumReal(g, MinExp) / n;
    MeanBounds(SumReal(g, MinExp), n, mean);
    mean
  }

  lemma MeanBounds(total: real, n: real, mean: real)
    requires n >= 1.0 && 0.0 <= total <= n * 15.0 && mean == total / n
    ensures 0.0 <= mean <= 15.0 && mean * n == total
  {
  }

  /** `opp_score`: vacancies over (mean experience + 1), a divisor of at least 1. */
  function OppScore(vacancies: int, mean: real): (r: real)
    requires mean >= 0.0
    ensures r * (mean + 1.0) == vacancies as real
    ensures vacancies >= 0 ==> 0.0 <= r <= vacancies as real
  {
    var r := vacancies as real / (mean + 1.0);
    OppScoreAtMost(vacancies as real, mean, r);
    r
  }

  lemma OppScoreAtMost(vac: real, mean: real, opp: real)
    requires mean >= 0.0 && opp == vac / (mean + 1.0)
    ensures opp * (mean + 1.0) == vac
    ensures vac >= 0.0 ==> 0.0 <= opp <= vac
  {
    if vac >= 0.0 {
      assert opp * (mean + 1.0) == vac;
      assert opp >= 0.0;
      assert opp <= opp * (mean + 1.0);
    }
  }

  /** The metrics of one non-empty group: sums, the mean experience, the row
      count, the opportunity score and the competition index (applications
      per vacancy, 0 without vacancies). */
  function MetricsOf(xs: seq<CatRow>, keyOf: CatRow -> Option<string>, k: string): (m: KeyMetrics)
    requires Bounded(xs) && |Group(xs, keyOf, k)| > 0
    ensures m.key == k && m.postCount == |Group(xs, keyOf, k)|
    ensures m == Summary(k, Group(xs, keyOf, k), GroupTotal(xs, keyOf, MetricOf(NumVacancies), k),
                         GroupTotal(xs, keyOf, Applications, k))
  {
    GroupBounded(xs, keyOf, k);
    Summary(k, Group(xs, keyOf, k), GroupTotal(xs, keyOf, MetricOf(NumVacancies), k),
            GroupTotal(xs, keyOf, Applications, k))
  }

  /** The metrics of a non-empty group from its rows and its two sums: the
      mean experience times the row count is the experience total, the
      opportunity score times (mean + 1) is the vacancies, and the
      competition index times the vacancies is the applications (0 without
      vacancies). */
  function Summary(k: string, g: seq<CatRow>, vac: int, apps: int): (m: KeyMetrics)
    requires |g| > 0 && forall x :: x in g ==> 0.0 <= MinExp(x) <= 15.0
    ensures m.key == k && m.vacancies == vac && m.applications == apps && m.postCount == |g|
    ensures m.meanMinExp * m.postCount as real == SumReal(g, MinExp)
    ensures 0.0 <= m.meanMinExp <= 15.0
    ensures m.oppScore * (m.meanMinExp + 1.0) == vac as real
    ensures vac >= 0 ==> 0.0 <= m.oppScore <= vac as real
    ensures vac > 0 ==> m.compIndex * vac as real == apps as real
    ensures vac <= 0 ==> m.compIndex == 0.0
  {
    var mean := MeanMinExp(g);
    KeyMetrics(k, vac, apps, mean, |g|, OppScore(vac, mean), BulkFactor(apps, vac))
  }

  lemma GroupBounded(xs: seq<CatRow>, keyOf: CatRow -> Option<string>, k: string)
    requires Bounded(xs)
    ensures forall x :: x in Group(xs, keyOf, k) ==> 0.0 <= MinExp(x) <= 15.0
  {
    forall x | x in Group(xs, keyOf, k) ensures 0.0 <= MinExp(x) <= 15.0 {
      var i :| 0 <= i < |xs| && xs[i] == x;
    }
  }

  /** `groupby(key).agg(...)` with the two derived columns: one row per key
      present, keys in ascending order. */
  function Aggregate(xs: seq<CatRow>, keyOf: CatRow -> Option<string>): (r: seq<KeyMetrics>)
    requires Bounded(xs)
    ensures forall i, j :: 0 <= i < j < |r| ==> StrLt(r[i].key, r[j].key)
    ensures forall k :: (exists i :: 0 <= i < |r| && r[i].key == k) <==> exists x :: x in xs && keyOf(x) == Some(k)
    ensures forall i :: 0 <= i < |r| ==> |Group(xs, keyOf, r[i].key)| > 0 && r[i] == MetricsOf(xs, keyOf, r[i].key)
  {
    StrLtIsStrictTotalOrder();
    var ks := GroupKeys(xs, keyOf, StrLt);
    KeysHaveGroups(xs, keyOf, ks);
    var r := seq(|ks|, i requires 0 <= i < |ks| => MetricsOf(xs, keyOf, ks[i]));
    AggregateKeys(ks, r);
    r
  }

  lemma AggregateKeys(ks: seq<string>, r: seq<KeyMetrics>)
    requires |r| == |ks| && forall i :: 0 <= i < |r| ==> r[i].key == ks[i]
    ensures forall k :: (exists i :: 0 <= i < |r| && r[i].key == k) <==> k in ks
  {
    forall k | k in ks ensures exists i :: 0 <= i < |r| && r[i].key == k {
      var i :| 0 <= i < |ks| && ks[i] == k;
    }
  }

  /** `get_education_metrics`: the metrics of every sector. */
  function EducationMetrics(rows: seq<CatRow>): (r: seq<KeyMetrics>)
    requires Bounded(rows)
    ensures forall s :: (exists i :: 0 <= i < |r| && r[i].key == s) <==> s in Sectors(rows)
    ensures forall i :: 0 <= i < |r| ==>
              r[i].vacancies == SectorTotal(rows, r[i].key, NumVacancies)
              && r[i].postCount == |SectorRows(rows, r[i].key)|
              && 0.0 <= r[i].meanMinExp <= 15.0
    ensures forall i, j :: 0 <= i < j < |r| ==> StrLt(r[i].key, r[j].key)
    ensures forall i :: 0 <= i < |r| ==> r[i] == MetricsOf(rows, SectorOf, r[i].key)
  {
    Aggregate(rows, SectorOf)
  }

  /** The job-title column as a group key; a missing title belongs to no group. */
  function TitleOf(x: CatRow): Option<string> {
    x.p.title
  }

  /** The title metrics of the hidden-demand chart, over the exploded rows. */
  function TitleMetrics(rows: seq<CatRow>): (r: seq<KeyMetrics>)
    requires Bounded(rows)
    ensures forall t :: (exists i :: 0 <= i < |r| && r[i].key == t) <==> exists x :: x in rows && x.p.title == Some(t)
    ensures forall i :: 0 <= i < |r| ==> r[i] == MetricsOf(rows, TitleOf, r[i].key)
    ensures forall i, j :: 0 <= i < j < |r| ==> StrLt(r[i].key, r[j].key)
  {
    Aggregate(rows, TitleOf)
  }

  /** The four regions of the vacancies-versus-applications chart. */
  datatype Quadrant = HiddenOpportunity | CompetitiveMarket | NicheMarket | Oversupplied

  function QuadrantLabel(q: Quadrant): string {
    match q
    case HiddenOpportunity => "Hidden Opportunity"
    case CompetitiveMarket => "Competitive Market"
    case NicheMarket => "Niche Market"
    case Oversupplied => "Oversupplied"
  }

  /** The quadrants on the high-vacancy side. */
  predicate HighDemand(q: Quadrant) {
    q == HiddenOpportunity || q == CompetitiveMarket
  }

  /** The quadrants on the high-application side. */
  predicate HighCompetition(q: Quadrant) {
    q == CompetitiveMarket || q == Oversupplied
  }

  /** `assign_quadrant`: a value at a median counts as high on that axis. */
  function AssignQuadrant(vacancies: int, applications: int, medVac: real, medApp: real): (q: Quadrant)
    ensures HighDemand(q) <==> vacancies as real >= medVac
    ensures HighCompetition(q) <==> applications as real >= medApp
  {
    var highVac := vacancies as real >= medVac;
    var highApp := applications as real >= medApp;
    if highVac && !highApp then HiddenOpportunity
    else if highVac && highApp then CompetitiveMarket
    else if !highVac && !highApp then NicheMarket
    else Oversupplied
  }

  /** The two axes determine the quadrant: the one `AssignQuadrant` picks is
      the only quadrant on the row's side of both medians. */
  lemma QuadrantIsUnique(vacancies: int, applications: int, medVac: real, medApp: real, q: Quadrant)
    ensures (HighDemand(q) <==> vacancies as real >= medVac) && (HighCompetition(q) <==> applications as real >= medApp)
            <==> q == AssignQuadrant(vacancies, applications, medVac, medApp)
  {
  }

  /** A row exactly at both medians is a competitive market. */
  lemma AtBothMedians(vacancies: int, applications: int)
    ensures AssignQuadrant(vacancies, applications, vacancies as real, applications as real) == CompetitiveMarket
  {
  }

  /** More vacancies never moves a title off the high-demand side. */
  lemma DemandSideMonotone(v1: int, v2: int, applications: int, medVac: real, medApp: real)
    requires v1 <= v2
    ensures HighDemand(AssignQuadrant(v1, applications, medVac, medApp)) ==>
            HighDemand(AssignQuadrant(v2, applications, medVac, medApp))
  {
  }

  function MetricsVacancies(m: KeyMetrics): int {
    m.vacancies
  }

  /** The titles shown: all of them when there are at most fifty, otherwise
      the fifty with the most vacancies, largest first (`nlargest(50)`).
      With the titles in name order, as the title groupby lists them, a
      title left out with as many vacancies as a kept one comes after it
      (`keep='first'`). */
  function Sample(tm: seq<KeyMetrics>): (r: seq<KeyMetrics>)
    ensures |tm| <= 50 ==> r == tm
    ensures |tm| > 50 ==> |r| == 50 && NonIncreasing(r, MetricsVacancies)
    ensures multiset(r) <= multiset(tm)
    ensures forall y :: multiset(r)[y] < multiset(tm)[y] ==>
              forall i :: 0 <= i < |r| ==> y.vacancies <= r[i].vacancies
    ensures (forall i, j :: 0 <= i < j < |tm| ==> StrLt(tm[i].key, tm[j].key)) ==>
              forall x, y :: x in tm && x !in r && y in r && x.vacancies == y.vacancies ==> StrLt(y.key, x.key)
  {
    if |tm| > 50 then
      var r := TopN(tm, MetricsVacancies, 50);
      SampleDominance(tm, r);
      SampleTies(tm, r);
      r
    else tm
  }

  /** The top 50 by vacancies: a sub-multiset of the titles, and no title left
      out has more vacancies than one kept. */
  lemma SampleDominance(tm: seq<KeyMetrics>, r: seq<KeyMetrics>)
    requires r == TopN(tm, MetricsVacancies, 50)
    ensures multiset(r) <= multiset(tm)
    ensures forall y :: multiset(r)[y] < multiset(tm)[y] ==>
              forall i :: 0 <= i < |r| ==> y.vacancies <= r[i].vacancies
  {
    forall y | multiset(r)[y] < multiset(tm)[y]
      ensures forall i :: 0 <= i < |r| ==> y.vacancies <= r[i].vacancies
    {
      assert forall i :: 0 <= i < |r| ==> MetricsVacancies(y) <= MetricsVacancies(r[i]);
    }
  }

  lemma SampleTies(tm: seq<KeyMetrics>, r: seq<KeyMetrics>)
    requires r == TopN(tm, MetricsVacancies, 50)
    ensures (forall i, j :: 0 <= i < j < |tm| ==> StrLt(tm[i].key, tm[j].key)) ==>
              forall x, y :: x in tm && x !in r && y in r && x.vacancies == y.vacancies ==> StrLt(y.key, x.key)
  {
    if forall i, j :: 0 <= i < j < |tm| ==> StrLt(tm[i].key, tm[j].key) {
      StrLtIsStrictTotalOrder();
      assert NoDuplicates(tm);
      forall x, y | x in tm && x !in r && y in r && x.vacancies == y.vacancies
        ensures StrLt(y.key, x.key)
      {
        var a :| 0 <= a < |tm| && tm[a] == x;
        assert y in multiset(tm);
        var b :| 0 <= b < |tm| && tm[b] == y;
        assert !(a < b) && a != b;
      }
    }
  }

  /** One point of the hidden-demand chart. */
  datatype HiddenPoint = HiddenPoint(m: KeyMetrics, quadrant: Quadrant, titleText: string)

  /** The label drawn next to a point: none for a niche market. */
  function TitleText(q: Quadrant, title: string): (r: string)
    ensures q == NicheMarket ==> r == ""
    ensures q != NicheMarket ==> r == title
  {
    if q == NicheMarket then "" else title
  }

  /** The hidden-demand table: the sampled titles, each with its quadrant
      against the given medians and its label. */
  function HiddenDemand(tm: seq<KeyMetrics>, medVac: real, medApp: real): (r: seq<HiddenPoint>)
    ensures |r| == |Sample(tm)|
    ensures forall i :: 0 <= i < |r| ==>
              && r[i].m == Sample(tm)[i]
              && (HighDemand(r[i].quadrant) <==> r[i].m.vacancies as real >= medVac)
              && (HighCompetition(r[i].quadrant) <==> r[i].m.applications as real >= medApp)
              && r[i].titleText == TitleText(r[i].quadrant, r[i].m.key)
  {
    var s := Sample(tm);
    seq(|s|, i requires 0 <= i < |s| =>
      var q := AssignQuadrant(s[i].vacancies, s[i].applications, medVac, medApp);
      HiddenPoint(s[i], q, TitleText(q, s[i].key)))
  }

  /** The chart's titles come from `groupby`, so in name order, and its sample
      keeps, of two titles with the same vacancies, the one first by name. */
  lemma TitleSampleTies(rows: seq<CatRow>)
    requires Bounded(rows)
    ensures var tm := TitleMetrics(rows); var r := Sample(tm);
              forall x, y :: x in tm && x !in r && y in r && x.vacancies == y.vacancies ==> StrLt(y.key, x.key)
  {
    var tm := TitleMetrics(rows);
    assert forall i, j :: 0 <= i < j < |tm| ==> StrLt(tm[i].key, tm[j].key);
  }

  /** A title's label is empty exactly when it is a niche market, as long as
      the title itself is not empty. */
  lemma TitleTextEmptyIffNiche(q: Quadrant, title: string)
    requires title != ""
    ensures TitleText(q, title) == "" <==> q == NicheMarket
  {
  }
}

=== FILE: order.dfy ===
/** Orderings used by the tables: Python's string comparison, the sorted
    group keys that pandas `groupby` produces, and the descending sort behind
    `sort_values(ascending=False).head(n)` and `nlargest(n)`. */
module Order {
  import opened Seqs

  /** Python's `<` on strings: lexicographic by code point, a proper prefix
      sorting first. */
  predicate StrLt(a: string, b: string) {
    |b| > 0 && (|a| == 0 || a[0] < b[0] || (a[0] == b[0] && StrLt(a[1..], b[1..])))
  }

  lemma {:induction false} StrLtIrreflexive(a: string)
    ensures !StrLt(a, a)
  {
    if |a| > 0 {
      StrLtIrreflexive(a[1..]);
    }
  }

  lemma {:induction false} StrLtTransitive(a: string, b: string, c: string)
    requires StrLt(a, b) && StrLt(b, c)
    ensures StrLt(a, c)
  {
    if |a| > 0 && a[0] == b[0] && b[0] == c[0] {
      StrLtTransitive(a[1..], b[1..], c[1..]);
    }
  }

  lemma {:induction false} StrLtTotal(a: string, b: string)
    ensures a == b || StrLt(a, b) || StrLt(b, a)
  {
    if |a| > 0 && |b| > 0 && a[0] == b[0] {
      StrLtTotal(a[1..], b[1..]);
      if a[1..] == b[1..] {
        assert a == [a[0]] + a[1..] && b == [b[0]] + b[1..];
      }
    }
  }

  /** `lt` is irreflexive, transitive and relates any two distinct values. */
  ghost predicate StrictTotalOrder<T(!new)>(lt: (T, T) -> bool) {
    && (forall a :: !lt(a, a))
    && (forall a, b, c :: lt(a, b) && lt(b, c) ==> lt(a, c))
    && (forall a, b :: a == b || lt(a, b) || lt(b, a))
  }

  lemma StrLtIsStrictTotalOrder()
    ensures StrictTotalOrder(StrLt)
  {
    forall a: string ensures !StrLt(a, a) {
      StrLtIrreflexive(a);
    }
    forall a: string, b: string, c: string | StrLt(a, b) && StrLt(b, c) ensures StrLt(a, c) {
      StrLtTransitive(a, b, c);
    }
    forall a: string, b: string ensures a == b || StrLt(a, b) || StrLt(b, a) {
      StrLtTotal(a, b);
    }
  }

  /** Every earlier element is strictly below every later one. */
  predicate StrictlySorted<T>(s: seq<T>, lt: (T, T) -> bool) {
    forall i, j :: 0 <= i < j < |s| ==> lt(s[i], s[j])
  }

  /** Prepending an element below every element keeps a sequence sorted. */
  lemma ConsSorted<T>(h: T, t: seq<T>, lt: (T, T) -> bool)
    requires StrictlySorted(t, lt)
    requires forall j :: 0 <= j < |t| ==> lt(h, t[j])
    ensures StrictlySorted([h] + t, lt)
  {
    var s := [h] + t;
    forall i, j | 0 <= i < j < |s| ensures lt(s[i], s[j]) {
      assert s[j] == t[j - 1];
      if i > 0 {
        assert s[i] == t[i - 1];
      }
    }
  }

  /** Inserts a new element into a strictly sorted sequence. */
  function Insert<T(==,!new)>(x: T, xs: seq<T>, lt: (T, T) -> bool): (r: seq<T>)
    requires StrictTotalOrder(lt)
    requires StrictlySorted(xs, lt) && x !in xs
    ensures StrictlySorted(r, lt)
    ensures multiset(r) == multiset(xs) + multiset{x}
  {
    if |xs| == 0 then [x]
    else
      assert xs == [xs[0]] + xs[1..];
      if lt(xs[0], x) then
        var tail := Insert(x, xs[1..], lt);
        InsertHeadBelow(x, xs, tail, lt);
        ConsSorted(xs[0], tail, lt);
        [xs[0]] + tail
      else
        assert x != xs[0];
        assert lt(x, xs[0]);
        assert forall j :: 0 <= j < |xs| ==> lt(x, xs[j]) by {
          forall j | 0 <= j < |xs| ensures lt(x, xs[j]) {
            if j > 0 {
              assert lt(xs[0], xs[j]);
            }
          }
        }
        ConsSorted(x, xs, lt);
        [x] + xs
  }

  /** Every element of the recursive insertion result lies above the head. */
  lemma InsertHeadBelow<T>(x: T, xs: seq<T>, tail: seq<T>, lt: (T, T) -> bool)
    requires |xs| > 0 && StrictlySorted(xs, lt) && lt(xs[0], x)
    requires multiset(tail) == multiset(xs[1..]) + multiset{x}
    ensures forall j :: 0 <= j < |tail| ==> lt(xs[0], tail[j])
  {
    forall j | 0 <= j < |tail| ensures lt(xs[0], tail[j]) {
      assert tail[j] in multiset(tail);
      if tail[j] != x {
        assert tail[j] in multiset(xs[1..]);
        var k :| 0 <= k < |xs[1..]| && xs[1..][k] == tail[j];
        assert xs[k + 1] == tail[j];
      }
    }
  }

  /** The distinct values of `xs` in ascending order: the group keys of a
      pandas `groupby`, which sorts them. */
  function SortedKeys<T(==,!new)>(xs: seq<T>, lt: (T, T) -> bool): (r: seq<T>)
    requires StrictTotalOrder(lt)
    ensures StrictlySorted(r, lt)
    ensures forall x :: x in r <==> x in xs
  {
    if |xs| == 0 then []
    else
      var rest := SortedKeys(xs[1..], lt);
      assert forall x :: x in xs <==> x == xs[0] || x in xs[1..];
      if xs[0] in rest then rest
      else
        var r := Insert(xs[0], rest, lt);
        assert forall x :: x in r <==> x in multiset(r);
        r
  }

  /** A strictly sorted sequence has no repeated element. */
  lemma StrictlySortedDistinct<T(!new)>(s: seq<T>, lt: (T, T) -> bool)
    requires StrictTotalOrder(lt) && StrictlySorted(s, lt)
    ensures forall i, j :: 0 <= i < j < |s| ==> s[i] != s[j]
  {
  }

  /** Filtering a sorted sequence leaves it sorted. */
  lemma {:induction false} FilterSorted<T(!new)>(xs: seq<T>, p: T -> bool, lt: (T, T) -> bool)
    requires StrictlySorted(xs, lt)
    ensures StrictlySorted(Filter(xs, p), lt)
  {
    if |xs| > 0 {
      var t := xs[1..];
      assert StrictlySorted(t, lt) by {
        forall i, j | 0 <= i < j < |t| ensures lt(t[i], t[j]) {
          assert t[i] == xs[i + 1] && t[j] == xs[j + 1];
        }
      }
      FilterSorted(t, p, lt);
      var rest := Filter(t, p);
      if p(xs[0]) {
        forall j | 0 <= j < |rest| ensures lt(xs[0], rest[j]) {
          assert rest[j] in t;
          var i :| 0 <= i < |t| && t[i] == rest[j];
          assert xs[i + 1] == rest[j];
        }
        ConsSorted(xs[0], rest, lt);
      }
    }
  }

  /** Values never increase from left to right. */
  predicate NonIncreasing<T>(s: seq<T>, v: T -> int) {
    forall i, j :: 0 <= i < j < |s| ==> v(s[i]) >= v(s[j])
  }

  lemma ConsNonIncreasing<T>(h: T, t: seq<T>, v: T -> int)
    requires NonIncreasing(t, v)
    requires forall j :: 0 <= j < |t| ==> v(h) >= v(t[j])
    ensures NonIncreasing([h] + t, v)
  {
    var s := [h] + t;
    forall i, j | 0 <= i < j < |s| ensures v(s[i]) >= v(s[j]) {
      assert s[j] == t[j - 1];
      if i > 0 {
        assert s[i] == t[i - 1];
      }
    }
  }

  /** Inserts `x` before the first element whose value does not exceed its own. */
  function InsertDesc<T>(x: T, xs: seq<T>, v: T -> int): (r: seq<T>)
    requires NonIncreasing(xs, v)
    ensures NonIncreasing(r, v)
    ensures multiset(r) == multiset(xs) + multiset{x}
  {
    if |xs| == 0 then [x]
    else
      assert xs == [xs[0]] + xs[1..];
      if v(xs[0]) > v(x) then
        var tail := InsertDesc(x, xs[1..], v);
        InsertDescHeadAbove(x, xs, tail, v);
        ConsNonIncreasing(xs[0], tail, v);
        [xs[0]] + tail
      else
        ConsNonIncreasing(x, xs, v);
        [x] + xs
  }

  /** Every element of the recursive insertion result has a value no larger than the head's. */
  lemma InsertDescHeadAbove<T>(x: T, xs: seq<T>, tail: seq<T>, v: T -> int)
    requires |xs| > 0 && NonIncreasing(xs, v) && v(xs[0]) > v(x)
    requires multiset(tail) == multiset(xs[1..]) + multiset{x}
    ensures forall j :: 0 <= j < |tail| ==> v(xs[0]) >= v(tail[j])
  {
    forall j | 0 <= j < |tail| ensures v(xs[0]) >= v(tail[j]) {
      assert tail[j] in multiset(tail);
      if tail[j] != x {
        assert tail[j] in multiset(xs[1..]);
        var k :| 0 <= k < |xs[1..]| && xs[1..][k] == tail[j];
        assert xs[k + 1] == tail[j];
      }
    }
  }

  /** Sorts by value, largest first. */
  function SortDesc<T>(xs: seq<T>, v: T -> int): (r: seq<T>)
    ensures NonIncreasing(r, v)
    ensures multiset(r) == multiset(xs)
  {
    if |xs| == 0 then []
    else
      assert xs == [xs[0]] + xs[1..];
      InsertDesc(xs[0], SortDesc(xs[1..], v), v)
  }

  /** Where `InsertDesc` puts `x`: after every element of larger value. */
  function InsertPos<T>(x: T, xs: seq<T>, v: T -> int): (p: nat)
    ensures p <= |xs|
  {
    if |xs| == 0 then 0
    else if v(xs[0]) > v(x) then 1 + InsertPos(x, xs[1..], v)
    else 0
  }

  /** Inserting keeps the other elements in their order and places `x` at
      `InsertPos`. */
  lemma {:induction false} InsertDescShape<T>(x: T, xs: seq<T>, v: T -> int)
    requires NonIncreasing(xs, v)
    ensures InsertDesc(x, xs, v) == xs[..InsertPos(x, xs, v)] + [x] + xs[InsertPos(x, xs, v)..]
  {
    if |xs| > 0 && v(xs[0]) > v(x) {
      var t := xs[1..];
      assert NonIncreasing(t, v) by {
        forall i, j | 0 <= i < j < |t| ensures v(t[i]) >= v(t[j]) {
          assert t[i] == xs[i + 1] && t[j] == xs[j + 1];
        }
      }
      InsertDescShape(x, t, v);
      var p := InsertPos(x, t, v);
      assert xs[..p + 1] == [xs[0]] + t[..p];
      assert xs[p + 1..] == t[p..];
    }
  }

  /** Every element before the insertion point has a larger value than `x`,
      so `x` goes before every element whose value does not exceed its own. */
  lemma {:induction false} InsertPosAbove<T>(x: T, xs: seq<T>, v: T -> int)
    ensures forall i :: 0 <= i < InsertPos(x, xs, v) ==> v(xs[i]) > v(x)
  {
    if |xs| > 0 && v(xs[0]) > v(x) {
      var t := xs[1..];
      InsertPosAbove(x, t, v);
      forall i | 0 <= i < InsertPos(x, xs, v) ensures v(xs[i]) > v(x) {
        if i > 0 {
          assert xs[i] == t[i - 1];
        }
      }
    }
  }

  /** The first `k` elements of a sequence with `x` inserted at `p`. */
  lemma InsertPrefix<T>(st: seq<T>, x: T, p: nat, k: nat, s: seq<T>)
    requires p <= |st| && s == st[..p] + [x] + st[p..] && k <= |s|
    ensures p < k ==> s[..k] == st[..p] + [x] + st[p..k - 1]
    ensures p >= k ==> s[..k] == st[..k]
  {
  }

  /** Apart from `x`, that prefix holds the elements of a prefix of `st`. */
  lemma InsertPrefixMembers<T>(st: seq<T>, x: T, p: nat, k: nat, s: seq<T>, y: T)
    requires p <= |st| && s == st[..p] + [x] + st[p..] && 0 < k <= |s| && y != x
    ensures y in s[..k] <==> y in st[..if p < k then k - 1 else k]
  {
    InsertPrefix(st, x, p, k, s);
    if p < k {
      var a, b := st[..p], st[p..k - 1];
      assert st[..k - 1] == a + b;
      assert y in a + [x] + b <==> y in a || y in b;
    }
  }

  /** The descending sort is stable: of two distinct elements, an earlier
      one of no smaller value sorts first, so a prefix that leaves out an
      earlier element and keeps a later one has a strictly larger value for
      the later one. */
  lemma {:induction false} SortPrefixStable<T>(xs: seq<T>, v: T -> int, k: nat)
    requires k <= |xs|
    ensures NoDuplicates(xs) ==>
              forall a, b :: 0 <= a < b < |xs| && xs[a] !in SortDesc(xs, v)[..k] && xs[b] in SortDesc(xs, v)[..k] ==>
                v(xs[a]) < v(xs[b])
  {
    if |xs| > 0 && NoDuplicates(xs) {
      var x0, t := xs[0], xs[1..];
      var st, s := SortDesc(t, v), SortDesc(xs, v);
      assert |st| == |multiset(st)| == |multiset(t)| == |t|;
      assert s == InsertDesc(x0, st, v);
      InsertDescShape(x0, st, v);
      InsertPosAbove(x0, st, v);
      var p := InsertPos(x0, st, v);
      InsertPrefix(st, x0, p, k, s);
      assert NoDuplicates(t) by {
        forall i, j | 0 <= i < j < |t| ensures t[i] != t[j] {
          assert t[i] == xs[i + 1] && t[j] == xs[j + 1];
        }
      }
      var k' := if p < k then k - 1 else k;
      SortPrefixStable(t, v, k');
      forall a, b | 0 <= a < b < |xs| && xs[a] !in s[..k] && xs[b] in s[..k]
        ensures v(xs[a]) < v(xs[b])
      {
        var y := xs[b];
        if a == 0 {
          assert p >= k;
          var j :| 0 <= j < k && st[..k][j] == y;
          assert st[j] == y;
        } else {
          assert xs[a] == t[a - 1] && y == t[b - 1] && y != x0;
          InsertPrefixMembers(st, x0, p, k, s, y);
          InsertPrefixMembers(st, x0, p, k, s, xs[a]);
        }
      }
    }
  }

  /** The `n` largest elements by value, largest first. Of equal values the
      earlier is kept (`nlargest`'s `keep='first'`): when the input has no
      repeats, an element left out that comes before a kept one has a
      strictly smaller value. */
  function TopN<T(!new)>(xs: seq<T>, v: T -> int, n: nat): (r: seq<T>)
    ensures |r| == if n < |xs| then n else |xs|
    ensures NonIncreasing(r, v)
    ensures multiset(r) <= multiset(xs)
    ensures forall y :: multiset(r)[y] < multiset(xs)[y] ==>
              forall i :: 0 <= i < |r| ==> v(y) <= v(r[i])
    ensures NoDuplicates(xs) ==>
              forall a, b :: 0 <= a < b < |xs| && xs[a] !in r && xs[b] in r ==> v(xs[a]) < v(xs[b])
  {
    var s := SortDesc(xs, v);
    var k := if n < |s| then n else |s|;
    TopNSplit(s, v, k);
    SortPrefixStable(xs, v, k);
    s[..k]
  }

  /** In a value-sorted sequence, whatever lies past position `k` is no larger
      than anything before it. */
  lemma TopNSplit<T>(s: seq<T>, v: T -> int, k: nat)
    requires NonIncreasing(s, v) && k <= |s|
    ensures multiset(s[..k]) <= multiset(s)
    ensures NonIncreasing(s[..k], v)
    ensures forall y :: multiset(s[..k])[y] < multiset(s)[y] ==>
              forall i :: 0 <= i < k ==> v(y) <= v(s[i])
  {
    assert s == s[..k] + s[k..];
    assert multiset(s) == multiset(s[..k]) + multiset(s[k..]);
    forall y | multiset(s[..k])[y] < multiset(s)[y]
      ensures forall i :: 0 <= i < k ==> v(y) <= v(s[i])
    {
      assert y in multiset(s[k..]);
      var j :| 0 <= j < |s[k..]| && s[k..][j] == y;
      assert s[k + j] == y;
    }
  }

  /** Lexicographic order on pairs: by the first component, then the second
      (the order of a two-column `groupby` or `sort_values`). */
  function Lex<A(==), B>(ltA: (A, A) -> bool, ltB: (B, B) -> bool): ((A, B), (A, B)) -> bool {
    (x: (A, B), y: (A, B)) => ltA(x.0, y.0) || (x.0 == y.0 && ltB(x.1, y.1))
  }

  lemma LexIsStrictTotalOrder<A(!new), B(!new)>(ltA: (A, A) -> bool, ltB: (B, B) -> bool)
    requires StrictTotalOrder(ltA) && StrictTotalOrder(ltB)
    ensures StrictTotalOrder(Lex(ltA, ltB))
  {
    var lt := Lex(ltA, ltB);
    forall x: (A, B), y: (A, B), z: (A, B) | lt(x, y) && lt(y, z) ensures lt(x, z) {
      if ltA(x.0, y.0) && ltA(y.0, z.0) {
        assert ltA(x.0, z.0);
      }
    }
    forall x: (A, B), y: (A, B) ensures x == y || lt(x, y) || lt(y, x) {
      if x.0 == y.0 && x.1 == y.1 {
        assert x == y;
      }
    }
  }
}

=== FILE: seqs.dfy ===
/** Sequence operations shared by the table transformations: row filters
    (pandas boolean indexing), column sums and first-occurrence de-duplication. */
module Seqs {

  /** `a` is `b` with some elements removed and the rest left in order. */
  predicate Subseq<T(==)>(a: seq<T>, b: seq<T>)
    decreases |b|
  {
    if |a| == 0 then true
    else if |b| == 0 then false
    else (a[0] == b[0] && Subseq(a[1..], b[1..])) || Subseq(a, b[1..])
  }

  /** The rows of `xs` that satisfy `p`, in their original order. */
  function Filter<T(!new)>(xs: seq<T>, p: T -> bool): (r: seq<T>)
    ensures |r| <= |xs|
    ensures forall x :: x in r <==> x in xs && p(x)
    ensures Subseq(r, xs)
  {
    if |xs| == 0 then []
    else
      var rest := Filter(xs[1..], p);
      assert forall x :: x in xs <==> x == xs[0] || x in xs[1..];
      if p(xs[0]) then
        assert ([xs[0]] + rest)[1..] == rest;
        [xs[0]] + rest
      else
        rest
  }

  /** A filter keeps every occurrence of a row it accepts and none of the others. */
  lemma {:induction false} FilterMultiset<T(!new)>(xs: seq<T>, p: T -> bool, x: T)
    ensures multiset(Filter(xs, p))[x] == if p(x) then multiset(xs)[x] else 0
  {
    if |xs| > 0 {
      FilterMultiset(xs[1..], p, x);
      assert xs == [xs[0]] + xs[1..];
      if p(xs[0]) {
        assert Filter(xs, p) == [xs[0]] + Filter(xs[1..], p);
      }
    }
  }

  /** The sum of `f` over the rows (a pandas column `sum()`). */
  function Sum<T>(xs: seq<T>, f: T -> int): int {
    if |xs| == 0 then 0 else f(xs[0]) + Sum(xs[1..], f)
  }

  /** The sum of a real-valued column. */
  function SumReal<T>(xs: seq<T>, f: T -> real): real {
    if |xs| == 0 then 0.0 else f(xs[0]) + SumReal(xs[1..], f)
  }

  lemma {:induction false} SumAppend<T>(a: seq<T>, b: seq<T>, f: T -> int)
    ensures Sum(a + b, f) == Sum(a, f) + Sum(b, f)
  {
    if |a| == 0 {
      assert a + b == b;
    } else {
      assert (a + b)[1..] == a[1..] + b;
      SumAppend(a[1..], b, f);
    }
  }

  lemma {:induction false} SumRealAppend<T>(a: seq<T>, b: seq<T>, f: T -> real)
    ensures SumReal(a + b, f) == SumReal(a, f) + SumReal(b, f)
  {
    if |a| == 0 {
      assert a + b == b;
    } else {
      assert (a + b)[1..] == a[1..] + b;
      SumRealAppend(a[1..], b, f);
    }
  }

  /** Splitting a column by a predicate splits its sum. */
  lemma {:induction false} SumFilterSplit<T(!new)>(xs: seq<T>, p: T -> bool, f: T -> int)
    ensures Sum(Filter(xs, p), f) + Sum(Filter(xs, x => !p(x)), f) == Sum(xs, f)
  {
    if |xs| > 0 {
      SumFilterSplit(xs[1..], p, f);
    }
  }

  /** A sum of values that all lie in [lo, hi] lies in [|xs| * lo, |xs| * hi]. */
  lemma SumRealBounds<T>(xs: seq<T>, f: T -> real, lo: real, hi: real)
    requires forall x :: x in xs ==> lo <= f(x) <= hi
    ensures (|xs| as real) * lo <= SumReal(xs, f) <= (|xs| as real) * hi
  {
    SumRealBetween(xs, f, lo, hi);
    TimesIsProduct(|xs|, lo);
    TimesIsProduct(|xs|, hi);
  }

  /** `c` added up `n` times. */
  function Times(n: nat, c: real): real {
    if n == 0 then 0.0 else Times(n - 1, c) + c
  }

  lemma {:induction false} TimesIsProduct(n: nat, c: real)
    ensures Times(n, c) == (n as real) * c
  {
    if n > 0 {
      TimesIsProduct(n - 1, c);
      MulSucc((n - 1) as real, c);
    }
  }

  lemma MulSucc(n: real, c: real)
    ensures (n + 1.0) * c == n * c + c
  {
  }

  lemma {:induction false} SumRealBetween<T>(xs: seq<T>, f: T -> real, lo: real, hi: real)
    requires forall x :: x in xs ==> lo <= f(x) <= hi
    ensures Times(|xs|, lo) <= SumReal(xs, f) <= Times(|xs|, hi)
  {
    if |xs| > 0 {
      assert xs[0] in xs;
      assert forall x :: x in xs[1..] ==> x in xs;
      SumRealBetween(xs[1..], f, lo, hi);
    }
  }

  /** An element of a subsequence is an element of the whole. */
  lemma {:induction false} SubseqMember<T>(a: seq<T>, b: seq<T>, x: T)
    requires Subseq(a, b) && x in a
    ensures x in b
    decreases |b|
  {
    if |b| > 0 {
      if a[0] == b[0] && Subseq(a[1..], b[1..]) {
        if x != a[0] {
          assert x in a[1..];
          SubseqMember(a[1..], b[1..], x);
        }
      } else {
        SubseqMember(a, b[1..], x);
      }
    }
  }

  /** No element occurs twice. */
  predicate NoDuplicates<T(==)>(xs: seq<T>) {
    forall i, j :: 0 <= i < j < |xs| ==> xs[i] != xs[j]
  }

  /** The elements of `xs` in first-occurrence order, each once
      (pandas `drop_duplicates` / `unique`). */
  function Dedup<T(==,!new)>(xs: seq<T>): (r: seq<T>)
    ensures NoDuplicates(r)
    ensures forall x :: x in r <==> x in xs
    ensures |r| <= |xs|
    ensures Subseq(r, xs)
    decreases |xs|
  {
    if |xs| == 0 then []
    else
      var rest := Dedup(Filter(xs[1..], y => y != xs[0]));
      assert xs == [xs[0]] + xs[1..];
      assert ([xs[0]] + rest)[1..] == rest;
      assert xs[0] !in rest;
      assert forall j :: 1 <= j < |rest| + 1 ==> ([xs[0]] + rest)[j] == rest[j - 1];
      SubseqTrans(rest, Filter(xs[1..], y => y != xs[0]), xs[1..]);
      [xs[0]] + rest
  }

  lemma {:induction false} SubseqTrans<T>(a: seq<T>, b: seq<T>, c: seq<T>)
    requires Subseq(a, b) && Subseq(b, c)
    ensures Subseq(a, c)
    decreases |c|
  {
    if |a| == 0 {
    } else if |c| == 0 {
    } else if |b| == 0 {
    } else if a[0] == b[0] && Subseq(a[1..], b[1..]) {
      if b[0] == c[0] && Subseq(b[1..], c[1..]) {
        SubseqTrans(a[1..], b[1..], c[1..]);
      } else {
        SubseqTrans(a, b, c[1..]);
      }
    } else {
      if b[0] == c[0] && Subseq(b[1..], c[1..]) {
        SubseqTrans(a, b[1..], c[1..]);
      } else {
        SubseqTrans(a, b, c[1..]);
      }
    }
  }

  /** A duplicate-free sequence has as many elements as its set. */
  lemma {:induction false} NoDuplicatesCard<T>(xs: seq<T>)
    requires NoDuplicates(xs)
    ensures |set x | x in xs| == |xs|
  {
    if |xs| > 0 {
      var tail := xs[1..];
      assert NoDuplicates(tail);
      NoDuplicatesCard(tail);
      assert (set x | x in xs) == (set x | x in tail) + {xs[0]};
      assert xs[0] !in tail;
    }
  }

  /** `f` applied to every element, in order. */
  function Apply<T, U>(xs: seq<T>, f: T -> U): seq<U> {
    seq(|xs|, i requires 0 <= i < |xs| => f(xs[i]))
  }

  lemma ApplyTail<T, U>(xs: seq<T>, f: T -> U)
    requires |xs| > 0
    ensures Apply(xs, f)[0] == f(xs[0])
    ensures Apply(xs, f)[1..] == Apply(xs[1..], f)
  {
    var a, t := Apply(xs, f), Apply(xs[1..], f);
    forall i | 0 <= i < |t| ensures a[1..][i] == t[i] {
      assert xs[1..][i] == xs[i + 1];
    }
  }

  /** The blocks laid end to end. */
  function Flatten<T>(blocks: seq<seq<T>>): seq<T> {
    if |blocks| == 0 then [] else blocks[0] + Flatten(blocks[1..])
  }

  /** The combined length of the blocks. */
  function TotalLength<T>(blocks: seq<seq<T>>): nat {
    if |blocks| == 0 then 0 else |blocks[0]| + TotalLength(blocks[1..])
  }

  lemma {:induction false} FlattenLength<T>(blocks: seq<seq<T>>)
    ensures |Flatten(blocks)| == TotalLength(blocks)
  {
    if |blocks| > 0 {
      FlattenLength(blocks[1..]);
    }
  }

  lemma {:induction false} TotalLengthPrefix<T>(blocks: seq<seq<T>>, k: nat)
    requires 0 < k <= |blocks|
    ensures TotalLength(blocks[..k]) == |blocks[0]| + TotalLength(blocks[1..][..k - 1])
  {
    assert blocks[..k][1..] == blocks[1..][..k - 1];
  }

  /** Block k occupies its own stretch of the flattened sequence, starting
      where the blocks before it end. */
  lemma {:induction false} FlattenBlock<T>(blocks: seq<seq<T>>, k: nat)
    requires k < |blocks|
    ensures TotalLength(blocks[..k]) + |blocks[k]| <= |Flatten(blocks)|
    ensures Flatten(blocks)[TotalLength(blocks[..k]) .. TotalLength(blocks[..k]) + |blocks[k]|] == blocks[k]
  {
    var all := Flatten(blocks);
    var tail := Flatten(blocks[1..]);
    assert all == blocks[0] + tail;
    if k == 0 {
      assert blocks[..0] == [];
      assert all[0 .. |blocks[0]|] == blocks[0];
    } else {
      TotalLengthPrefix(blocks, k);
      FlattenBlock(blocks[1..], k - 1);
      assert blocks[1..][k - 1] == blocks[k];
      var o := TotalLength(blocks[1..][..k - 1]);
      assert all[|blocks[0]| + o .. |blocks[0]| + o + |blocks[k]|] == tail[o .. o + |blocks[k]|];
    }
  }

  /** Summing a flattened sequence sums the blocks' sums. */
  lemma {:induction false} SumFlatten<T>(blocks: seq<seq<T>>, f: T -> int)
    ensures Sum(Flatten(blocks), f) == Sum(blocks, (b: seq<T>) => Sum(b, f))
  {
    if |blocks| > 0 {
      SumAppend(blocks[0], Flatten(blocks[1..]), f);
      SumFlatten(blocks[1..], f);
    }
  }

  /** A duplicate-free sequence holds each value at most once. */
  lemma {:induction false} NoDuplicatesMultiset<T>(s: seq<T>, x: T)
    requires NoDuplicates(s)
    ensures multiset(s)[x] <= 1
  {
    if |s| > 0 {
      assert s == [s[0]] + s[1..];
      NoDuplicatesMultiset(s[1..], x);
      if s[0] == x {
        assert x !in s[1..];
      }
    }
  }

  /** Two positions holding the same value make it occur at least twice. */
  lemma TwoPositions<T>(r: seq<T>, i: nat, j: nat)
    requires i < j < |r|
    ensures r[i] == r[j] ==> multiset(r)[r[i]] >= 2
  {
    assert r == r[..j] + r[j..];
    assert r[i] in r[..j] && r[j] in r[j..];
    assert multiset(r)[r[i]] == multiset(r[..j])[r[i]] + multiset(r[j..])[r[i]];
  }

  /** A sub-multiset of a duplicate-free sequence is duplicate-free. */
  lemma SubMultisetNoDuplicates<T>(r: seq<T>, s: seq<T>)
    requires multiset(r) <= multiset(s) && NoDuplicates(s)
    ensures NoDuplicates(r)
  {
    forall i, j | 0 <= i < j < |r| ensures r[i] != r[j] {
      TwoPositions(r, i, j);
      NoDuplicatesMultiset(s, r[i]);
    }
  }

  /** Filtering a duplicate-free sequence leaves it duplicate-free. */
  lemma FilterNoDuplicates<T(!new)>(xs: seq<T>, p: T -> bool)
    requires NoDuplicates(xs)
    ensures NoDuplicates(Filter(xs, p))
  {
    var r := Filter(xs, p);
    forall x ensures multiset(r)[x] <= multiset(xs)[x] {
      FilterMultiset(xs, p, x);
    }
    assert multiset(r) <= multiset(xs);
    SubMultisetNoDuplicates(r, xs);
  }
}

=== FILE: skills_optimizer.dfy ===
/** The skills pre-aggregation (cat_skills_data_optimizer.py:23-110): keep
    the four needed columns, drop rows without a usable date or with a
    missing value, and count the distinct postings of every (skill, category,
    month) in (month, category, skill) order. */
module SkillsOptimizer {
  import opened Values
  import opened Seqs
  import opened Order
  import opened Groups
  import opened MonthKeys

  /** A parsed posting date. */
  datatype Date = Date(year: int, month: int, day: int)

  /** A row of the input file. `postingDate` is None where the date is
      missing or does not parse (`errors='coerce'` turns it into NaT). */
  datatype InputRow = InputRow(
    skill: Option<string>,
    category: Option<string>,
    postingDate: Option<Date>,
    jobId: Option<string>)

  /** The input file: its column names and its rows. */
  datatype Input = Input(columns: seq<string>, rows: seq<InputRow>)

  const RequiredColumns: seq<string> := ["skill", "category", "posting_date", "job_id"]

  /** Every parsed date lies in the range pandas timestamps can hold, so
      its year has four digits. */
  predicate DatesInRange(rows: seq<InputRow>) {
    forall i :: 0 <= i < |rows| && rows[i].postingDate.Some? ==>
      ValidMonth(rows[i].postingDate.value.year, rows[i].postingDate.value.month)
  }

  /** The output row order: month, then category, then skill. */
  type Key = (string, (string, string))

  function KeyLt(): (Key, Key) -> bool {
    Lex(StrLt, Lex(StrLt, StrLt))
  }

  lemma KeyLtIsStrictTotalOrder()
    ensures StrictTotalOrder(KeyLt())
  {
    StrLtIsStrictTotalOrder();
    LexIsStrictTotalOrder(StrLt, StrLt);
    LexIsStrictTotalOrder(StrLt, Lex(StrLt, StrLt));
  }

  /** The row survives both `dropna` steps: a parsed date and no missing value. */
  predicate Complete(x: InputRow) {
    x.skill.Some? && x.category.Some? && x.postingDate.Some? && x.jobId.Some?
  }

  /** The (month_year, category, skill) of a complete row; None for a row
      the script drops. */
  function KeyOf(x: InputRow): Option<Key> {
    if Complete(x) && ValidMonth(x.postingDate.value.year, x.postingDate.value.month) then
      Some((MonthKey(x.postingDate.value.year, x.postingDate.value.month), (x.category.value, x.skill.value)))
    else None
  }

  /** The job ids of a group's rows, in order. */
  function JobIds(g: seq<InputRow>): (r: seq<string>)
    requires forall x :: x in g ==> x.jobId.Some?
    ensures |r| == |g|
    ensures forall i :: 0 <= i < |r| ==> r[i] == g[i].jobId.value
  {
    seq(|g|, i requires 0 <= i < |g| => g[i].jobId.value)
  }

  /** One output row. */
  datatype SkillCount = SkillCount(skill: string, category: string, monthYear: string, jobCount: nat)

  /** `nunique` of the job ids of one key's rows. */
  function CountOf(rows: seq<InputRow>, k: Key): (c: SkillCount)
    requires |Group(rows, KeyOf, k)| > 0
    ensures c.monthYear == k.0 && c.category == k.1.0 && c.skill == k.1.1
    ensures c.jobCount == |set x | x in Group(rows, KeyOf, k) :: x.jobId.value|
    ensures 1 <= c.jobCount <= |Group(rows, KeyOf, k)|
  {
    var g := Group(rows, KeyOf, k);
    assert forall x :: x in g ==> x.jobId.Some?;
    var ids := JobIds(g);
    var distinct := Dedup(ids);
    NoDuplicatesCard(distinct);
    assert (set y | y in distinct) == (set x | x in g :: x.jobId.value) by {
      forall y | y in ids ensures y in (set x | x in g :: x.jobId.value) {
        var i :| 0 <= i < |ids| && ids[i] == y;
        assert g[i] in g;
      }
      forall x | x in g ensures x.jobId.value in ids {
        var i :| 0 <= i < |g| && g[i] == x;
        assert ids[i] == x.jobId.value;
      }
    }
    assert ids[0] in distinct;
    SkillCount(k.1.1, k.1.0, k.0, |distinct|)
  }

  /** `groupby(['skill', 'category', 'month_year']).agg(nunique)` followed by
      `sort_values(['month_year', 'category', 'skill'])`: one row per key
      present among the complete rows, strictly ordered by month, category,
      skill. */
  function Aggregate(rows: seq<InputRow>): (r: seq<SkillCount>)
    ensures forall i, j :: 0 <= i < j < |r| ==>
              KeyLt()((r[i].monthYear, (r[i].category, r[i].skill)), (r[j].monthYear, (r[j].category, r[j].skill)))
    ensures forall k :: (exists i :: 0 <= i < |r| && (r[i].monthYear, (r[i].category, r[i].skill)) == k)
              <==> exists x :: x in rows && KeyOf(x) == Some(k)
    ensures forall i :: 0 <= i < |r| ==>
              r[i] == CountOf(rows, (r[i].monthYear, (r[i].category, r[i].skill)))
  {
    KeyLtIsStrictTotalOrder();
    var ks := GroupKeys(rows, KeyOf, KeyLt());
    KeysHaveGroups(rows, KeyOf, ks);
    var r := seq(|ks|, i requires 0 <= i < |ks| => CountOf(rows, ks[i]));
    AggregateKeys(ks, r);
    r
  }

  lemma AggregateKeys(ks: seq<Key>, r: seq<SkillCount>)
    requires |r| == |ks|
    requires forall i :: 0 <= i < |r| ==> (r[i].monthYear, (r[i].category, r[i].skill)) == ks[i]
    ensures forall k :: (exists i :: 0 <= i < |r| && (r[i].monthYear, (r[i].category, r[i].skill)) == k) <==> k in ks
  {
    forall k | k in ks ensures exists i :: 0 <= i < |r| && (r[i].monthYear, (r[i].category, r[i].skill)) == k {
      var i :| 0 <= i < |ks| && ks[i] == k;
    }
  }

  /** A row survives to the aggregation exactly when it has every value and
      a date that parsed. */
  lemma KeptRowsAreComplete(x: InputRow)
    requires x.postingDate.Some? ==> ValidMonth(x.postingDate.value.year, x.postingDate.value.month)
    ensures KeyOf(x).Some? <==> Complete(x)
  {
  }

  /** A complete row is counted under its own month, category and skill. */
  lemma RowCountedUnderItsKey(rows: seq<InputRow>, i: nat)
    requires i < |rows| && Complete(rows[i]) && DatesInRange(rows)
    ensures exists j :: 0 <= j < |Aggregate(rows)| &&
              Aggregate(rows)[j].skill == rows[i].skill.value &&
              Aggregate(rows)[j].category == rows[i].category.value &&
              Aggregate(rows)[j].monthYear == MonthKey(rows[i].postingDate.value.year, rows[i].postingDate.value.month)
  {
    var x := rows[i];
    assert x in rows;
    var k := (MonthKey(x.postingDate.value.year, x.postingDate.value.month), (x.category.value, x.skill.value));
    assert KeyOf(x) == Some(k);
    var r := Aggregate(rows);
    assert exists j :: 0 <= j < |r| && (r[j].monthYear, (r[j].category, r[j].skill)) == k;
    var j :| 0 <= j < |r| && (r[j].monthYear, (r[j].category, r[j].skill)) == k;
    assert r[j].skill == x.skill.value && r[j].category == x.category.value;
  }

  /** The row survives the cleaning and reaches the aggregation. */
  predicate Survives(x: InputRow) {
    KeyOf(x).Some?
  }

  lemma NoSurvivorIsIncomplete(rows: seq<InputRow>)
    requires DatesInRange(rows)
    requires |Filter(rows, Survives)| == 0
    ensures forall x :: x in rows ==> !Complete(x)
  {
    forall x | x in rows ensures !Complete(x) {
      assert x !in Filter(rows, Survives);
      KeptRowsAreComplete(x);
    }
  }

  /** A surviving row gives the aggregation a row. */
  lemma SurvivorIsCounted(rows: seq<InputRow>, x: InputRow)
    requires x in rows && Survives(x)
    ensures |Aggregate(rows)| > 0
  {
    var r := Aggregate(rows);
    assert exists i :: 0 <= i < |r| && (r[i].monthYear, (r[i].category, r[i].skill)) == KeyOf(x).value;
  }

  /** How `optimize_skills_data` ends. */
  datatype Outcome =
    | NotFound                              // the input file does not exist
    | MissingColumns(missing: seq<string>)  // the required columns it lacks, in order
    | NoRowsLeft                            // the row-reduction report divides by zero
    | Written(counts: seq<SkillCount>)      // the aggregated rows written out

  /** `optimize_skills_data` once the input file is found: a missing
      required column ends early; when no row survives the cleaning the
      report's percentage divides by the row count zero and the script
      fails before writing; otherwise it writes the aggregation, which then
      has a row. */
  function OptimizeFile(t: Input): (r: Outcome)
    requires DatesInRange(t.rows)
    ensures !r.NotFound?
    ensures r.MissingColumns? <==> exists c :: c in RequiredColumns && c !in t.columns
    ensures r.MissingColumns? ==> forall c :: c in r.missing <==> c in RequiredColumns && c !in t.columns
    ensures r.NoRowsLeft? <==>
              (forall c :: c in RequiredColumns ==> c in t.columns) && forall x :: x in t.rows ==> !Complete(x)
    ensures r.Written? ==> r.counts == Aggregate(t.rows) && |r.counts| > 0
  {
    var missing := Filter(RequiredColumns, (c: string) => c !in t.columns);
    if |missing| > 0 then MissingColumns(missing)
    else
      var kept := Filter(t.rows, Survives);
      if |kept| == 0 then
        NoSurvivorIsIncomplete(t.rows);
        NoRowsLeft
      else
        SurvivorIsCounted(t.rows, kept[0]);
        Written(Aggregate(t.rows))
  }

  /** `optimize_skills_data`: a missing input file ends it at once, and
      only that does. */
  function Optimize(input: Option<Input>): (r: Outcome)
    requires input.Some? ==> DatesInRange(input.value.rows)
    ensures r.NotFound? <==> input.None?
    ensures input.Some? ==> r == OptimizeFile(input.value)
  {
    match input
    case None => NotFound
    case Some(t) => OptimizeFile(t)
  }
}

=== FILE: title_backfill.dfy ===
/** The job-title back-fill script (refactor_data.py:10-83): take the first
    `jobtitle_cleaned` seen for each `job_id` in the source table, attach it
    to every row of the target table by a left merge on `job_id`, and drop
    the legacy `title` and `average_salary` columns. */
module TitleBackfill {
  import opened Values
  import opened Seqs

  /** A table row: column name to cell. */
  type Row = map<string, Scalar>

  /** A table: its column names in order and its rows. */
  datatype Frame = Frame(columns: seq<string>, rows: seq<Row>)

  /** Distinct column names, and every row has exactly those columns. */
  predicate WellFormed(f: Frame) {
    && NoDuplicates(f.columns)
    && forall i :: 0 <= i < |f.rows| ==> SameColumns(f.rows[i], f.columns)
  }

  /** The row has exactly the columns `columns`. */
  predicate SameColumns(row: Row, columns: seq<string>) {
    (forall c :: c in row ==> c in columns) && (forall c :: c in columns ==> c in row)
  }

  const JobIdColumn: string := "job_id"
  const TitleColumn: string := "jobtitle_cleaned"

  /** The legacy columns dropped at the end. */
  const LegacyColumns: set<string> := {"title", "average_salary"}

  /** The (job_id, jobtitle_cleaned) pairs of the source rows, in order. */
  function Pairs(rows: seq<Row>): (r: seq<(Scalar, Scalar)>)
    requires forall i :: 0 <= i < |rows| ==> JobIdColumn in rows[i] && TitleColumn in rows[i]
    ensures |r| == |rows|
    ensures forall i :: 0 <= i < |r| ==> r[i] == (rows[i][JobIdColumn], rows[i][TitleColumn])
  {
    seq(|rows|, i requires 0 <= i < |rows| => (rows[i][JobIdColumn], rows[i][TitleColumn]))
  }

  /** The title of the first pair with job id `id`, if any. */
  function FirstTitle(pairs: seq<(Scalar, Scalar)>, id: Scalar): (r: Option<Scalar>)
    ensures r.None? <==> forall i :: 0 <= i < |pairs| ==> pairs[i].0 != id
    ensures r.Some? ==> exists i :: 0 <= i < |pairs| && pairs[i] == (id, r.value)
                                   && forall j :: 0 <= j < i ==> pairs[j].0 != id
  {
    if |pairs| == 0 then None
    else if pairs[0].0 == id then Some(pairs[0].1)
    else
      var r := FirstTitle(pairs[1..], id);
      assert forall i :: 1 <= i < |pairs| ==> pairs[i] == pairs[1..][i - 1];
      r
  }

  /** Distinct keys in the first components. */
  predicate UniqueKeys(m: seq<(Scalar, Scalar)>) {
    forall i, j :: 0 <= i < j < |m| ==> m[i].0 != m[j].0
  }

  /** `drop_duplicates(subset=['job_id'])`: the first pair of every job id,
      in first-occurrence order. */
  function TitleMap(pairs: seq<(Scalar, Scalar)>): (m: seq<(Scalar, Scalar)>)
    ensures UniqueKeys(m)
    ensures Subseq(m, pairs)
    ensures forall id :: FirstTitle(m, id) == FirstTitle(pairs, id)
    decreases |pairs|
  {
    if |pairs| == 0 then []
    else
      var first := pairs[0];
      var later := Filter(pairs[1..], (p: (Scalar, Scalar)) => p.0 != first.0);
      var rest := TitleMap(later);
      var m := [first] + rest;
      assert m[1..] == rest;
      assert forall i :: 1 <= i < |m| ==> m[i] == rest[i - 1];
      assert forall p :: p in rest ==> p.0 != first.0 by {
        forall p | p in rest ensures p.0 != first.0 {
          FilteredKey(later, rest, p, first.0);
        }
      }
      SubseqTrans(rest, later, pairs[1..]);
      forall id ensures FirstTitle(m, id) == FirstTitle(pairs, id) {
        if id != first.0 {
          FirstTitleSkips(pairs[1..], id, first.0);
        }
      }
      m
  }

  lemma FilteredKey(later: seq<(Scalar, Scalar)>, rest: seq<(Scalar, Scalar)>, p: (Scalar, Scalar), k: Scalar)
    requires forall q :: q in later ==> q.0 != k
    requires Subseq(rest, later) && p in rest
    ensures p.0 != k
  {
    SubseqMember(rest, later, p);
  }

  /** Removing the pairs of another job id does not change a job id's first title. */
  lemma {:induction false} FirstTitleSkips(pairs: seq<(Scalar, Scalar)>, id: Scalar, other: Scalar)
    requires id != other
    ensures FirstTitle(Filter(pairs, (p: (Scalar, Scalar)) => p.0 != other), id) == FirstTitle(pairs, id)
  {
    if |pairs| > 0 {
      FirstTitleSkips(pairs[1..], id, other);
      if pairs[0].0 != other {
        var f := Filter(pairs, (p: (Scalar, Scalar)) => p.0 != other);
        assert f == [pairs[0]] + Filter(pairs[1..], (p: (Scalar, Scalar)) => p.0 != other);
        assert f[1..] == Filter(pairs[1..], (p: (Scalar, Scalar)) => p.0 != other);
      }
    }
  }

  /** The titles a left merge finds for one job id, in map order. */
  function Matches(m: seq<(Scalar, Scalar)>, id: Scalar): (r: seq<Scalar>)
    ensures |r| <= |m|
  {
    if |m| == 0 then []
    else (if m[0].0 == id then [m[0].1] else []) + Matches(m[1..], id)
  }

  /** With unique keys a job id matches at most once: its first title. */
  lemma {:induction false} UniqueMatch(m: seq<(Scalar, Scalar)>, id: Scalar)
    requires UniqueKeys(m)
    ensures Matches(m, id) == match FirstTitle(m, id) case Some(t) => [t] case None => []
  {
    if |m| > 0 {
      assert UniqueKeys(m[1..]) by {
        forall i, j | 0 <= i < j < |m[1..]| ensures m[1..][i].0 != m[1..][j].0 {
          assert m[1..][i] == m[i + 1] && m[1..][j] == m[j + 1];
        }
      }
      UniqueMatch(m[1..], id);
      if m[0].0 == id {
        assert forall i :: 0 <= i < |m[1..]| ==> m[1..][i].0 != id by {
          forall i | 0 <= i < |m[1..]| ensures m[1..][i].0 != id {
            assert m[1..][i] == m[i + 1];
          }
        }
      }
    }
  }

  /** The rows a left merge makes of one target row: one per matching title,
      or one with a missing title when nothing matches. */
  function MergeRow(row: Row, m: seq<(Scalar, Scalar)>): (r: seq<Row>)
    requires JobIdColumn in row
    ensures |r| >= 1
  {
    var ts := Matches(m, row[JobIdColumn]);
    if |ts| == 0 then [row[TitleColumn := Null]]
    else seq(|ts|, i requires 0 <= i < |ts| => row[TitleColumn := ts[i]])
  }

  /** `merge(how='left', on='job_id')`: the rows of every target row, in order. */
  function LeftMerge(rows: seq<Row>, m: seq<(Scalar, Scalar)>): (r: seq<Row>)
    requires forall i :: 0 <= i < |rows| ==> JobIdColumn in rows[i]
    ensures |r| >= |rows|
  {
    if |rows| == 0 then []
    else MergeRow(rows[0], m) + LeftMerge(rows[1..], m)
  }

  /** The title a target row receives: its job id's first title, or missing. */
  function TitleFor(m: seq<(Scalar, Scalar)>, id: Scalar): Scalar {
    match FirstTitle(m, id)
    case Some(t) => t
    case None => Null
  }

  /** With unique job ids in the map, the merge keeps every target row once,
      in order, adding its title. */
  lemma {:induction false} UniqueKeysKeepRows(rows: seq<Row>, m: seq<(Scalar, Scalar)>)
    requires forall i :: 0 <= i < |rows| ==> JobIdColumn in rows[i]
    requires UniqueKeys(m)
    ensures |LeftMerge(rows, m)| == |rows|
    ensures forall i :: 0 <= i < |rows| ==>
              LeftMerge(rows, m)[i] == rows[i][TitleColumn := TitleFor(m, rows[i][JobIdColumn])]
  {
    if |rows| > 0 {
      UniqueMatch(m, rows[0][JobIdColumn]);
      UniqueKeysKeepRows(rows[1..], m);
      var tail := LeftMerge(rows[1..], m);
      assert forall i :: 1 <= i < |rows| ==> LeftMerge(rows, m)[i] == tail[i - 1];
    }
  }

  /** A job id repeated in the map duplicates the target rows it matches:
      two pairs with the same id give such a row two merged rows. */
  lemma DuplicateKeysDuplicateRows(row: Row, id: Scalar, t1: Scalar, t2: Scalar)
    requires JobIdColumn in row && row[JobIdColumn] == id
    ensures |MergeRow(row, [(id, t1), (id, t2)])| == 2
  {
    assert Matches([(id, t1), (id, t2)], id) == [t1, t2] by {
      assert [(id, t1), (id, t2)][1..] == [(id, t2)];
      assert [(id, t2)][1..] == [];
    }
  }

  /** A target row after the merge and the column drops. */
  function FinalRow(row: Row, title: Scalar): Row {
    row[TitleColumn := title] - LegacyColumns
  }

  /** The output columns: the target's without its old title column, the
      merged title column last, the legacy columns removed. */
  function FinalColumns(columns: seq<string>): (r: seq<string>)
    ensures forall c :: c in r <==> (c in columns || c == TitleColumn) && c !in LegacyColumns
  {
    var merged := Filter(columns, (c: string) => c != TitleColumn) + [TitleColumn];
    Filter(merged, (c: string) => c !in LegacyColumns)
  }

  lemma FinalColumnsDistinct(columns: seq<string>)
    requires NoDuplicates(columns)
    ensures NoDuplicates(FinalColumns(columns))
  {
    var kept := Filter(columns, (c: string) => c != TitleColumn);
    FilterNoDuplicates(columns, (c: string) => c != TitleColumn);
    var merged := kept + [TitleColumn];
    assert NoDuplicates(merged) by {
      forall i, j | 0 <= i < j < |merged| ensures merged[i] != merged[j] {
        if j == |merged| - 1 {
          assert merged[i] in kept;
        }
      }
    }
    FilterNoDuplicates(merged, (c: string) => c !in LegacyColumns);
  }

  /** Why the script stops early. */
  datatype Failure = SourceMissing | TargetMissing | NoTitleColumn | NoJobIdColumn

  /** How the script ends: a non-zero status and nothing written, or status 0
      and the rewritten target. */
  datatype Outcome = Failed(code: int, why: Failure) | Written(code: int, frame: Frame)

  /** `main`. A missing file or a source without `jobtitle_cleaned` returns
      1; a `job_id` column missing from either table raises a KeyError, which
      also ends the process with status 1. */
  function Backfill(source: Option<Frame>, target: Option<Frame>): (r: Outcome)
    requires source.Some? ==> WellFormed(source.value)
    requires target.Some? ==> WellFormed(target.value)
    ensures source.None? ==> r == Failed(1, SourceMissing)
    ensures source.Some? && target.None? ==> r == Failed(1, TargetMissing)
    ensures source.Some? && target.Some? && TitleColumn !in source.value.columns ==> r == Failed(1, NoTitleColumn)
    ensures source.Some? && target.Some? && TitleColumn in source.value.columns
            && (JobIdColumn !in source.value.columns || JobIdColumn !in target.value.columns)
            ==> r == Failed(1, NoJobIdColumn)
    ensures r.Written? <==> (source.Some? && target.Some? && TitleColumn in source.value.columns
                             && JobIdColumn in source.value.columns && JobIdColumn in target.value.columns)
    ensures r.Written? ==> r == Written(0, Rewrite(source.value, target.value))
  {
    if source.None? then Failed(1, SourceMissing)
    else if target.None? then Failed(1, TargetMissing)
    else
      var src := source.value;
      var tgt := target.value;
      if TitleColumn !in src.columns then Failed(1, NoTitleColumn)
      else if JobIdColumn !in src.columns || JobIdColumn !in tgt.columns then Failed(1, NoJobIdColumn)
      else Written(0, Rewrite(src, tgt))
  }

  /** The rewritten target once both tables have the needed columns. */
  function Rewrite(src: Frame, tgt: Frame): (f: Frame)
    requires WellFormed(src) && WellFormed(tgt)
    requires TitleColumn in src.columns && JobIdColumn in src.columns && JobIdColumn in tgt.columns
    ensures WellFormed(f) && f.columns == FinalColumns(tgt.columns)
    ensures |f.rows| == |tgt.rows|
    ensures forall i :: 0 <= i < |f.rows| ==>
              f.rows[i] == FinalRow(tgt.rows[i], TitleFor(Pairs(src.rows), tgt.rows[i][JobIdColumn]))
  {
    RowsHave(src, JobIdColumn);
    RowsHave(src, TitleColumn);
    RowsHave(tgt, JobIdColumn);
    var pairs := Pairs(src.rows);
    var m := TitleMap(pairs);
    var merged := LeftMerge(tgt.rows, m);
    var out := DropLegacy(merged);
    var titles := Titles(tgt.rows, pairs);
    MergedRows(tgt.rows, pairs, m, merged, out, titles);
    var f := Frame(FinalColumns(tgt.columns), out);
    FinalFrameWellFormed(tgt, f, titles);
    f
  }

  lemma RowsHave(f: Frame, c: string)
    requires WellFormed(f) && c in f.columns
    ensures forall i :: 0 <= i < |f.rows| ==> c in f.rows[i]
  {
  }

  /** `drop(columns=['title', 'average_salary'])` on every row. */
  function DropLegacy(rows: seq<Row>): (r: seq<Row>)
    ensures |r| == |rows|
    ensures forall i :: 0 <= i < |r| ==> r[i] == rows[i] - LegacyColumns
  {
    seq(|rows|, i requires 0 <= i < |rows| => rows[i] - LegacyColumns)
  }

  /** The title each target row receives. */
  function Titles(rows: seq<Row>, pairs: seq<(Scalar, Scalar)>): (r: seq<Scalar>)
    requires forall i :: 0 <= i < |rows| ==> JobIdColumn in rows[i]
    ensures |r| == |rows|
    ensures forall i :: 0 <= i < |r| ==> r[i] == TitleFor(pairs, rows[i][JobIdColumn])
  {
    seq(|rows|, i requires 0 <= i < |rows| => TitleFor(pairs, rows[i][JobIdColumn]))
  }

  lemma MergedRows(rows: seq<Row>, pairs: seq<(Scalar, Scalar)>, m: seq<(Scalar, Scalar)>,
                   merged: seq<Row>, out: seq<Row>, titles: seq<Scalar>)
    requires forall i :: 0 <= i < |rows| ==> JobIdColumn in rows[i]
    requires m == TitleMap(pairs) && merged == LeftMerge(rows, m)
    requires |out| == |merged| && forall i :: 0 <= i < |out| ==> out[i] == merged[i] - LegacyColumns
    requires |titles| == |rows| && forall i :: 0 <= i < |rows| ==> titles[i] == TitleFor(pairs, rows[i][JobIdColumn])
    ensures |out| == |rows|
    ensures forall i :: 0 <= i < |out| ==> out[i] == FinalRow(rows[i], titles[i])
  {
    UniqueKeysKeepRows(rows, m);
    forall i | 0 <= i < |out| ensures out[i] == FinalRow(rows[i], titles[i]) {
      assert FirstTitle(m, rows[i][JobIdColumn]) == FirstTitle(pairs, rows[i][JobIdColumn]);
    }
  }

  lemma FinalFrameWellFormed(tgt: Frame, f: Frame, titles: seq<Scalar>)
    requires WellFormed(tgt)
    requires f.columns == FinalColumns(tgt.columns) && |f.rows| == |tgt.rows| == |titles|
    requires forall i :: 0 <= i < |f.rows| ==> f.rows[i] == FinalRow(tgt.rows[i], titles[i])
    ensures WellFormed(f)
  {
    FinalColumnsDistinct(tgt.columns);
    forall i | 0 <= i < |f.rows| ensures SameColumns(f.rows[i], f.columns) {
      FinalRowKeys(tgt.rows[i], titles[i], tgt.columns);
    }
  }

  lemma FinalRowKeys(row: Row, title: Scalar, columns: seq<string>)
    requires SameColumns(row, columns)
    ensures SameColumns(FinalRow(row, title), FinalColumns(columns))
  {
  }

  /** Columns other than the title and the legacy ones pass through untouched. */
  lemma OtherColumnsUnchanged(row: Row, title: Scalar, c: string)
    requires c in row && c != TitleColumn && c !in LegacyColumns
    ensures c in FinalRow(row, title) && FinalRow(row, title)[c] == row[c]
  {
  }
}

=== FILE: values.dfy ===
/** Values that flow through the job-market tables: optional cells, the raw
    text-or-other content of a dataframe cell, and decoded JSON documents
    together with Python's `str()` rendering of them. */
module Values {

  /** A value that may be missing (pandas NaN / None). */
  datatype Option<+T> = None | Some(value: T) {

    /** The value, or `default` when missing (pandas `fillna`). */
    function GetOr(default: T): T {
      match this
      case Some(v) => v
      case None => default
    }
  }

  /** A raw dataframe cell as far as `isinstance(x, str)` can tell. */
  datatype Cell = TextCell(s: string) | OtherCell

  /** A decoded JSON document as Python's json module returns it.
      Numbers keep the text they were written with. */
  datatype Json =
    | JNull
    | JBool(b: bool)
    | JNumber(text: string)
    | JString(s: string)
    | JArray(items: seq<Json>)
    | JObject(entries: seq<(string, Json)>)

  /** `dict.get(key)`: the value bound to `key`; a later binding of the same
      key wins, as it does when json.loads builds a dict. */
  function Lookup(entries: seq<(string, Json)>, key: string): (r: Option<Json>)
    ensures r.None? <==> forall i :: 0 <= i < |entries| ==> entries[i].0 != key
    ensures r.Some? ==> exists i :: 0 <= i < |entries| && entries[i] == (key, r.value)
                                    && forall j :: i < j < |entries| ==> entries[j].0 != key
  {
    if |entries| == 0 then None
    else
      var n := |entries| - 1;
      if entries[n].0 == key then Some(entries[n].1)
      else
        var front := entries[..n];
        var r := Lookup(front, key);
        assert forall i :: 0 <= i < n ==> front[i] == entries[i];
        if r.None? then r
        else
          ghost var i :| 0 <= i < n && front[i] == (key, r.value) && forall j :: i < j < n ==> front[j].0 != key;
          assert entries[i] == (key, r.value);
          r
  }

  /** The keys of the dict json.loads builds from `entries`: each key once,
      in the order of its first binding (KeysInFirstOrder). A repeated key
      keeps its place and only its value changes. */
  function Keys(entries: seq<(string, Json)>): (r: seq<string>)
    ensures |r| <= |entries|
    ensures |r| == 0 <==> |entries| == 0
    ensures forall i, j :: 0 <= i < j < |r| ==> r[i] != r[j]
    ensures forall k :: k in r <==> exists i :: 0 <= i < |entries| && entries[i].0 == k
  {
    if |entries| == 0 then []
    else
      var n := |entries| - 1;
      var front := entries[..n];
      var ks := Keys(front);
      assert forall i :: 0 <= i < n ==> front[i] == entries[i];
      if entries[n].0 in ks then ks else ks + [entries[n].0]
  }

  /** A key listed before another has a binding before every binding of
      the other: the keys come in the order of their first bindings. */
  lemma {:induction false} KeysInFirstOrder(entries: seq<(string, Json)>, i: nat, j: nat, q: nat)
    requires i < j < |Keys(entries)| && q < |entries| && entries[q].0 == Keys(entries)[j]
    ensures exists p :: 0 <= p < q && entries[p].0 == Keys(entries)[i]
  {
    var n := |entries| - 1;
    var front := entries[..n];
    var ks, r := Keys(front), Keys(entries);
    assert forall x :: 0 <= x < n ==> front[x] == entries[x];
    assert r[i] == ks[i] && r[i] in ks;
    if q == n {
      var p :| 0 <= p < n && front[p].0 == r[i];
      assert entries[p].0 == r[i];
    } else {
      assert j < |ks| && r[j] == ks[j];
      KeysInFirstOrder(front, i, j, q);
      var p :| 0 <= p < q && front[p].0 == ks[i];
      assert entries[p].0 == r[i];
    }
  }

  /** The position of the binding of `key` that a dict keeps: its last. */
  function LastIndex(entries: seq<(string, Json)>, key: string): (i: nat)
    requires exists q :: 0 <= q < |entries| && entries[q].0 == key
    ensures i < |entries| && entries[i].0 == key
    ensures forall j :: i < j < |entries| ==> entries[j].0 != key
  {
    var n := |entries| - 1;
    if entries[n].0 == key then n
    else
      var front := entries[..n];
      ghost var q :| 0 <= q < |entries| && entries[q].0 == key;
      assert front[q].0 == key;
      var i := LastIndex(front, key);
      assert entries[i] == front[i];
      i
  }

  /** `dict.get` returns the value of the binding the dict keeps. */
  lemma LookupIsLast(entries: seq<(string, Json)>, key: string)
    requires exists q :: 0 <= q < |entries| && entries[q].0 == key
    ensures Lookup(entries, key) == Some(entries[LastIndex(entries, key)].1)
  {
    var i := LastIndex(entries, key);
    var r := Lookup(entries, key);
    assert r.Some?;
    var i' :| 0 <= i' < |entries| && entries[i'] == (key, r.value)
              && forall j :: i' < j < |entries| ==> entries[j].0 != key;
    assert i' == i;
  }

  /** Joins rendered items with ", " as Python's container reprs do. */
  function JoinComma(parts: seq<string>): string {
    if |parts| == 0 then ""
    else if |parts| == 1 then parts[0]
    else parts[0] + ", " + JoinComma(parts[1..])
  }

  /** Python's `repr()` of a decoded value: strings are quoted. */
  function Repr(j: Json): string
    decreases j, 2
  {
    match j
    case JString(s) => "'" + s + "'"
    case _ => Str(j)
  }

  /** Python's `str()` of a decoded value: `None`, `True`, `[...]`, `{...}`;
      a string renders as itself. */
  function Str(j: Json): string
    decreases j, 1
  {
    match j
    case JNull => "None"
    case JBool(b) => if b then "True" else "False"
    case JNumber(t) => t
    case JString(s) => s
    case JArray(items) =>
      "[" + JoinComma(seq(|items|, i requires 0 <= i < |items| => Repr(items[i]))) + "]"
    case JObject(entries) => "{" + JoinComma(DictItems(entries)) + "}"
  }

  /** The `'key': value` parts of a dict's `str()`: one per key, in key
      order, each with the value the dict keeps. */
  function DictItems(entries: seq<(string, Json)>): (r: seq<string>)
    decreases JObject(entries), 0
  {
    var ks := Keys(entries);
    seq(|ks|, i requires 0 <= i < |ks| =>
          assert ks[i] in ks;
          "'" + ks[i] + "': " + Repr(entries[LastIndex(entries, ks[i])].1))
  }

  /** `str()` of a dict depends only on the dict: entries with the same keys
      in the same order and the same kept values render the same. */
  lemma StrIsOfDict(a: seq<(string, Json)>, b: seq<(string, Json)>)
    requires Keys(a) == Keys(b)
    requires forall k :: k in Keys(a) ==> Lookup(a, k) == Lookup(b, k)
    ensures Str(JObject(a)) == Str(JObject(b))
  {
    var ks, ra, rb := Keys(a), DictItems(a), DictItems(b);
    forall i | 0 <= i < |ks| ensures ra[i] == rb[i] {
      var k := ks[i];
      assert k in ks;
      var ia, ib := LastIndex(a, k), LastIndex(b, k);
      LookupIsLast(a, k);
      LookupIsLast(b, k);
      assert Some(a[ia].1) == Lookup(a, k) == Lookup(b, k) == Some(b[ib].1);
    }
    assert ra == rb;
  }

  /** A repeated key renders once, with its later value. */
  lemma StrRepeatedKey()
    ensures Str(JObject([("a", JNumber("1")), ("a", JNumber("2"))])) == "{'a': 2}"
  {
    var e := [("a", JNumber("1")), ("a", JNumber("2"))];
    assert Keys(e[..1]) == ["a"];
    assert Keys(e) == ["a"];
    assert LastIndex(e, "a") == 1;
    var items := DictItems(e);
    assert Repr(e[1].1) == "2";
    assert |items| == 1 && items[0] == "'a': " + "2";
    assert "'a': " + "2" == "'a': 2";
    assert items == ["'a': 2"];
    assert "{" + JoinComma(items) + "}" == "{'a': 2}";
  }

  /** A generic scalar cell of a table whose columns the model does not fix. */
  datatype Scalar = Null | Text(s: string) | Number(n: int)
}
